=== FILE: README.md ===
# Sprite-O-Matic in Dafny

Sprite-O-Matic (`spriteomatic.py`) turns a directory of images into three things:

- one horizontal strip of all the images, `sprites.png`;
- a stylesheet, `sprites.css`, with one class per image that positions the strip as its background;
- a preview page, `sprites.html`, with one `div` per image.

This project models the pure part of the `SpriteOMatic` class as Dafny functions over immutable values, and proves what that part promises.

- `ClassName` (`classname.dfy`) covers `filename_to_classname`, which derives a CSS class name from a file path.
- `Layout` (`layout.dfy`) covers the geometry of `stitch_images`. It is a left fold over the ordered list of (name, width, height) records. It yields the composite size and the name → placement map that `dict.update` builds.
- `Paths` (`paths.dfy`) covers the `url(...)` of the shared `.sprite` rule. The code computes it by splitting directory names on the working directory: how many `../` to add, and the sprite path after the working directory.
- `Stylesheet` (`stylesheet.dfy`) covers the rules `create_css` writes and their text. The CSS_TPL template is filled in once per map entry.
- `Preview` (`preview.dfy`) covers the page `create_html` writes: the HTML_TPL template, a link to the stylesheet, and one div per class name.
- `SpriteOMatic` (`spriteomatic.dfy`) covers `run`, which chains the pieces above.

The supporting modules model the Python built-ins the code relies on:

- `Strings` covers `str.split`, `sep.join` and `s * n`. Its `Replace` is not called by the tool: it is a reference definition used to state `ClassName.StemOf` and `ClassName.ClassNameOfPath`. The `re.sub` at line 72 is modelled by `ClassName.Hyphenate`.
- `Numerals` covers `str(int)`.
- `Wrappers` provides an `Option` type for parse results.

Each text output has a reader, used to state round trips: `ParseCss` and `ParsePreview`. The round-trip lemmas show that the text carries exactly the model's values. They also show that the two files disagree in the way the code makes them:

- The page has one div per image, duplicates included.
- The stylesheet has one rule per distinct class name.

Two behaviours of the code are worth stating plainly:

- A stylesheet directory two or more levels below the working directory still gets a single `../`, provided the rest of its path does not contain the working directory's path again. The code counts the non-empty pieces of `css_dir.split(curdir)`, not path components. Each further occurrence of the working directory's path that leaves a non-empty piece adds one `../`; one that leaves only empty pieces adds none. With working directory `/x`, `/x/y/xz` gets two and `/x/x` gets none.
  - `Paths.OneParentBelowCurdir` and `Paths.ExampleTwoLevelsDown` state this; `Paths.ExampleRecurringName` and `Paths.ExampleAdjacentRepeat` show the exceptions.
- Deriving a class name is deterministic but not idempotent. A class name contains no `.`, so deriving again from it gives "".
  - `ClassName.RederiveGivesEmpty` states this.

## Model

| member | source | states |
|---|---|---|
| ClassName.FilenameToClassname | spriteomatic.py:70-72 | The class name never contains an upper-case letter, `_`, space, `/` or `.`. Every character is `-` or the lower-case form of a character of the file name. A file name without `.` gives "". |
| ClassName.Stem | spriteomatic.py:71 | The pieces of the file name split on `.`, all but the last, re-joined with `-`. `StemOf` gives its closed form: the dots before the extension replaced by `-`. |
| ClassName.LastSegment | spriteomatic.py:71 | The last piece of a split on `/`: the text after the last `/`, or the whole text when there is none. `LastSegmentAfterSlash`, `LastSegmentOfPlain` and `BaseAlphabet` state this. |
| ClassName.ClassNameOfPath | spriteomatic.py:70-72 | For `dir/base.ext`, with no `/` in base and no `.` in ext: the directory and the extension are dropped, the dots left in base become `-`, then it is lower-cased, and `_` and space become `-`. |
| ClassName.ClassNameOfBareName | spriteomatic.py:70-72 | The same for a `base.ext` with no directory part. |
| ClassName.StemOf | spriteomatic.py:71 | Re-joining with `-` every piece of a split on `.` but the last is the same as replacing each `.` before the extension with `-`. |
| ClassName.ClassNameHasNoBreak | spriteomatic.py:70-72 | A file name without a line break gives a class name without one. |
| ClassName.RederiveGivesEmpty | spriteomatic.py:70-72 | Deriving a class name from a class name always gives "", so the derivation is not idempotent. |
| ClassName.ExampleMixedCase | spriteomatic.py:70-72 | `My Sprite_1.PNG` gives `my-sprite-1`. |
| ClassName.ExampleInDirectory | spriteomatic.py:70-72 | `icons/Arrow_Left.gif`, a path as a directory scan yields it, gives `arrow-left`. |
| ClassName.ExampleNoExtension | spriteomatic.py:70-72 | `README` gives "". |
| Strings.Split | spriteomatic.py:71 | Python's `str.split(sep)`: the pieces between the leftmost non-overlapping occurrences of sep, always at least one. `JoinSplitRoundTrip`, `SplitWithout`, `SplitConcat` and `SplitJoinRoundTrip` state its behaviour. |
| Strings.JoinSplitRoundTrip | spriteomatic.py:71 | Joining the pieces of a split with the same separator gives back the text. |
| Strings.SplitConcat | spriteomatic.py:71 | A split on one character distributes over a concatenation around that character. |
| Strings.SplitWithout | spriteomatic.py:128 | Splitting a text that does not contain the separator gives the text as the only piece. |
| Strings.SplitJoinRoundTrip | spriteomatic.py:134-150 | Splitting lines joined by a line break, none of which contains one, gives back the same lines. |
| Layout.Stitch | spriteomatic.py:88-125 | The fold satisfies `IsStripOf`: the width is the sum of the widths; the height is at least every image's height and equals one of them, or is 0 for no images; the map has one key per class name; each key holds the placement of the last image with that name. |
| Layout.Step | spriteomatic.py:96-121 | One pass of the placement loop: the image goes at the running x and y = 0, its name's entry is overwritten, the running x grows by its width, and the height is raised to the image's if larger. `StitchStep` shows that a step keeps `IsStripOf`. |
| Layout.StitchStep | spriteomatic.py:107-121 | A step from a sheet that describes the first images gives the sheet that describes them plus the next one. |
| Layout.StripIsUnique | spriteomatic.py:88-125 | At most one sheet satisfies `IsStripOf` for given images, so that description fixes the layout. |
| Layout.LastIndex | spriteomatic.py:114-119 | -1 exactly when no image has the name; otherwise the index of an image with that name after which no image has it. |
| Layout.PlacementOfImage | spriteomatic.py:107-121 | When image i is the last with its name, the map holds that name at x equal to the sum of the widths before image i, at y = 0, with image i's width and height. |
| Layout.PlacementOfEachImage | spriteomatic.py:107-121 | When no two images share a name, every image is in the map under its name at that placement. |
| Layout.PlacementsOrdered | spriteomatic.py:107-121 | For i < j, image i ends at or before the x where image j starts. |
| Layout.PlacementInside | spriteomatic.py:96-121 | Every placement lies inside the composite. |
| Layout.SheetIsPacked | spriteomatic.py:107-121 | Every entry of the returned map lies inside the composite, and entries under different names do not overlap. |
| Layout.EntriesPerName | spriteomatic.py:114-119 | The map has exactly as many entries as distinct names, at most one per image. It has one per image exactly when no two images share a name. |
| Layout.ExampleThreeImages | spriteomatic.py:88-125 | Images a 10×20, b 5×30 and c 8×8 give a 23×30 composite with a at x 0, b at x 10 and c at x 15. |
| Layout.NewCanvas | spriteomatic.py:102-105 | The composite is RGBA exactly when alpha is non-zero, otherwise RGB. It has the layout's size and is filled with white, 255 in every channel. |
| Paths.PathJoin | spriteomatic.py:130 | `os.path.join`: an absolute second part is the result by itself. Otherwise the result is the first part followed by the second, with one `/` inserted only when the first part is non-empty and does not end in `/`. |
| Paths.SpriteRelPath | spriteomatic.py:130-131 | The sprite path always ends with `sprites.png`. |
| Paths.ParentLevels | spriteomatic.py:128 | The number of `../`: the count of non-empty pieces of the stylesheet directory split on the working directory. `NoParentAtCurdir` and `OneParentBelowCurdir` give its value. |
| Paths.SpriteUrl | spriteomatic.py:132-133 | The URL in the `.sprite` rule: the sprite path, after one `../` per level when there are any. `UrlShape`, `UrlAtCurdir` and `UrlBelowCurdir` state its shape. |
| Paths.UrlShape | spriteomatic.py:128-133 | The URL always ends with `sprites.png`, and is 3 characters longer than the sprite path per `../` level. |
| Paths.StripKeepsFileName | spriteomatic.py:131 | Dropping one leading `/` never removes the trailing `sprites.png`. |
| Paths.NoParentAtCurdir | spriteomatic.py:128 | A stylesheet directory equal to the working directory gets no `../`. |
| Paths.OneParentBelowCurdir | spriteomatic.py:128 | A stylesheet directory anywhere below the working directory, whose remainder does not contain the working directory's path, gets exactly one `../`, whatever its depth. |
| Paths.UrlAtCurdir | spriteomatic.py:128-133 | With the stylesheet in the working directory, the URL is the sprite path alone. |
| Paths.UrlBelowCurdir | spriteomatic.py:128-133 | With the stylesheet below the working directory, and the rest of its path not containing the working directory's path again, the URL is `../` followed by the sprite path. |
| Paths.UrlFromBelowToCurdir | spriteomatic.py:128-133 | With the composite in the working directory, and the stylesheet below it in a directory whose rest does not contain the working directory's path again, the URL is `../sprites.png`. |
| Paths.SpritePathAtCurdir | spriteomatic.py:130-131 | With the composite in the working directory, the sprite path is `sprites.png`. |
| Paths.SpritePathInSubdir | spriteomatic.py:130-131 | With the composite in `curdir/d`, where `/d` does not contain the working directory's path and d does not end in `/`, the sprite path is `d/sprites.png`. |
| Paths.UrlHasNoBreak | spriteomatic.py:128-133 | A sprite directory without a line break gives a URL without one. |
| Paths.ExampleTwoLevelsDown | spriteomatic.py:128-133 | Working directory `/home/u`, composite there, stylesheet in `/home/u/css/sub`: the URL is `../sprites.png`, not `../../sprites.png`. |
| Paths.ExampleRepeatedCurdir | spriteomatic.py:130-131 | Working directory `/x`, composite in `/x/xy`: the second piece of the split is empty, so the URL is `sprites.png`. |
| Paths.ExampleRecurringName | spriteomatic.py:128-133 | Working directory `/x`, composite there, stylesheet in `/x/y/xz`: the split has two non-empty pieces, so the URL is `../../sprites.png`. |
| Paths.ExampleAdjacentRepeat | spriteomatic.py:128-133 | Working directory `/x`, composite there, stylesheet in `/x/x`: the split has only empty pieces, so the URL is `sprites.png` with no `../`. |
| Numerals.IntToString | spriteomatic.py:143-147 | `str(n)` is non-empty and made of digits and `-`; it starts with `-` exactly for negative numbers. |
| Numerals.NatToStringRoundTrip | spriteomatic.py:143-147 | Every printed natural number reads back as itself. |
| Numerals.IntToStringRoundTrip | spriteomatic.py:143-147 | Every printed integer, negative ones included, reads back as itself. |
| Numerals.IntToStringInjective | spriteomatic.py:143-147 | Distinct integers never print the same. |
| Stylesheet.CreateCss | spriteomatic.py:127-150 | The URL is the computed sprite URL. There is one rule per map entry, every entry has a rule, and no name has two. Each rule carries its entry's width and height and the negated x and y as position. |
| Stylesheet.Render | spriteomatic.py:134-150 | The stylesheet text: the `.sprite` header with the URL, then CSS_TPL filled once per rule, in order. `ParseRenderRoundTrip` shows it reads back as the stylesheet. |
| Stylesheet.CssText | spriteomatic.py:127-150 | The text written for a placement map visited in a given order. `CssTextReadsBack` shows it reads back as `CreateCss` of the map. |
| Stylesheet.EnumerationSize | spriteomatic.py:142 | A visiting order that lists each key once has as many elements as the map has keys. |
| Stylesheet.ParseRuleRoundTrip | spriteomatic.py:33-39 | One filled-in CSS_TPL reads back as the rule it was filled from: name, width, height and both signed offsets. |
| Stylesheet.ParseRulesRoundTrip | spriteomatic.py:142-150 | The filled-in templates of a list of rules read back as that list, in order. |
| Stylesheet.ParseRenderRoundTrip | spriteomatic.py:134-150 | The stylesheet text, the `.sprite` header and then the rules in order, reads back as the stylesheet when the URL and names have no line break. |
| Stylesheet.CssTextReadsBack | spriteomatic.py:127-150 | The text written for a placement map reads back as the created stylesheet. |
| Preview.ParsePreviewRoundTrip | spriteomatic.py:157-166 | The page reads back as the stylesheet link and exactly the class names given, one div each, in order, duplicates kept. |
| Preview.CreateHtml | spriteomatic.py:157-166 | HTML_TPL filled with the stylesheet link and one div line per name. `ParsePreviewRoundTrip` and `DivCount` state its content. |
| Preview.DivCount | spriteomatic.py:160-162 | The page has as many divs as names given. |
| Preview.ParseDivsRoundTrip | spriteomatic.py:160-162 | The div lines of the body read back as exactly the class names they were written from, in order. |
| Preview.PageAsLines | spriteomatic.py:17-31 | The page is the HTML_TPL lines, the div lines and the closing lines, joined by line breaks. |
| SpriteOMatic.Run | spriteomatic.py:63-68 | One run's layout satisfies `IsStripOf` for the images named by their class names. The canvas has the layout's size and is RGBA exactly when alpha is non-zero. No key of the map contains a forbidden character. |
| SpriteOMatic.LoadImages | spriteomatic.py:79 | One image per file, in file order, with the file's size, named by the class name of its path, so no name has a forbidden character. |
| SpriteOMatic.ClassNames | spriteomatic.py:67 | The image names in image order, repeats included. `PageReadsBack` and `ArtifactsAgree` show the page holds exactly these. |
| SpriteOMatic.StylesheetReadsBack | spriteomatic.py:63-66 | For break-free paths, the stylesheet text of a run reads back as the stylesheet created from its layout. |
| SpriteOMatic.PageReadsBack | spriteomatic.py:67-68 | For break-free paths, the page of a run reads back as one div per file, in file order. |
| SpriteOMatic.ArtifactsAgree | spriteomatic.py:63-68 | Both texts read back as the model's values. The page has one div per file; the stylesheet has at most that many rules, and exactly that many only when no two files share a class name. |

## Left out

- Pixel work through the imaging library (`Image.open`, `paste`, `save`, lines 80, 111, 123) is not modelled. An image is its name and size, and the composite is its mode, size and fill colour.
- Directory scanning in `get_images` (lines 74-86) is left out: glob order and extension matching depend on the filesystem. `Run` takes the ordered list of files with their sizes as a parameter.
- File writes (lines 151-155, 168-170) are left out; the stylesheet and page are returned as strings.
- The command line (lines 174-241) is left out. Its check that the sprite directory starts with the working directory (line 222) becomes a precondition of `Paths.SpriteRelPath`, `Paths.SpriteUrl`, `Stylesheet.CreateCss` and `SpriteOMatic.Run`.
- `os.path.abspath` (line 47) reads process state; the working directory is a non-empty parameter, as an absolute path always is.
- The depth recomputed at line 140 is never read afterwards and is not modelled.
- Python 2 dictionary iteration order (line 142) is not fixed. `Stylesheet.CreateCss` takes any order that lists each key exactly once.
- `ClassName.FilenameToClassname`: `lower()` is modelled on ASCII letters only, as Python 2 byte strings behave. Other characters are kept as they are.
- The reading functions `ParseCss` and `ParsePreview` are not part of the tool; they are used to state round trips. Their round trips assume no line break in directory names or class names, since a break would split a line.
- `Strings.Split` has only a length contract of its own. Its behaviour is stated by the lemmas about it (`JoinSplitRoundTrip`, `SplitConcat`, `SplitAtPrefix`, `SplitWithout`).

=== FILE: classname.dfy ===
/**
 * Derivation of a CSS class name from an image's file name
 * (`SpriteOMatic.filename_to_classname`).
 */
module ClassName {

  import opened Strings

  predicate IsUpper(ch: char) {
    'A' <= ch <= 'Z'
  }

  /** Python 2 `str.lower()` on a byte string changes the ASCII letters only. */
  function LowerChar(ch: char): char {
    if IsUpper(ch) then (ch as int + 32) as char else ch
  }

  function Lower(s: string): string {
    seq(|s|, i requires 0 <= i < |s| => LowerChar(s[i]))
  }

  /** The substitution `re.sub('[_ ]', '-', s)`, one character at a time. */
  function HyphenChar(ch: char): char {
    if ch == '_' || ch == ' ' then '-' else ch
  }

  function Hyphenate(s: string): string {
    seq(|s|, i requires 0 <= i < |s| => HyphenChar(s[i]))
  }

  /** The characters a class name never contains. */
  predicate Forbidden(ch: char) {
    IsUpper(ch) || ch == '_' || ch == ' ' || ch == '/' || ch == '.'
  }

  /** Line 71, first half: the pieces before the last `.`, re-joined with `-`. */
  function Stem(filename: string): string {
    var pieces := Split(filename, ".");
    Join(pieces[..|pieces| - 1], "-")
  }

  /** Line 71, second half: the text after the last `/`. */
  function LastSegment(path: string): string {
    var segments := Split(path, "/");
    segments[|segments| - 1]
  }

  /**
   * The class name of a file: drop the text after the last `.`, turn the
   * remaining dots into `-`, keep the part after the last `/`, lower-case it
   * and turn `_` and space into `-`. A name with no `.` gives "".
   */
  function FilenameToClassname(filename: string): (name: string)
    ensures forall ch :: ch in name ==> !Forbidden(ch)
    ensures forall ch :: ch in name ==> ch == '-' || exists c :: c in filename && ch == LowerChar(c)
    ensures '.' !in filename ==> name == ""
  {
    BaseAlphabet(filename);
    CleanedAlphabet(LastSegment(Stem(filename)), filename);
    NoDotClassName(filename);
    Hyphenate(Lower(LastSegment(Stem(filename))))
  }

  /** Without a `.` the split has one piece, `[:-1]` drops it, and nothing is left. */
  lemma NoDotClassName(filename: string)
    ensures '.' !in filename ==> Hyphenate(Lower(LastSegment(Stem(filename)))) == ""
  {
    if '.' !in filename {
      CharAbsentNotOccurs(filename, '.');
      SplitWithout(filename, ".");
      assert Split(filename, ".")[..0] == [];
      assert Stem(filename) == "";
      assert LastSegment("") == "";
    }
  }

  /** Lower-casing and hyphenating a text free of `/` and `.` leaves no forbidden character. */
  lemma CleanedAlphabet(base: string, filename: string)
    requires forall ch :: ch in base ==> ch != '/' && ch != '.'
    requires forall ch :: ch in base ==> ch == '-' || ch in filename
    ensures forall ch :: ch in Hyphenate(Lower(base)) ==> !Forbidden(ch)
    ensures forall ch :: ch in Hyphenate(Lower(base)) ==>
              ch == '-' || exists c :: c in filename && ch == LowerChar(c)
  {
    var r := Hyphenate(Lower(base));
    forall ch | ch in r
      ensures !Forbidden(ch)
      ensures ch == '-' || exists c :: c in filename && ch == LowerChar(c)
    {
      var i :| 0 <= i < |r| && r[i] == ch;
      assert base[i] in base;
    }
  }

  /** A file name without a line break gives a class name without one. */
  lemma ClassNameHasNoBreak(filename: string)
    requires '\n' !in filename
    ensures '\n' !in FilenameToClassname(filename)
  {
  }

  /** The last `/`-segment of the stem holds neither `/` nor `.`. */
  lemma BaseAlphabet(filename: string)
    ensures forall ch :: ch in LastSegment(Stem(filename)) ==> ch != '/' && ch != '.'
    ensures forall ch :: ch in LastSegment(Stem(filename)) ==> ch == '-' || ch in filename
  {
    var pieces := Split(filename, ".");
    var kept := pieces[..|pieces| - 1];
    var stem := Stem(filename);
    var segments := Split(stem, "/");
    var base := segments[|segments| - 1];
    SplitPartsLackSep(filename, '.');
    SplitPartsLackSep(stem, '/');
    SplitPartsElems(stem, "/");
    SplitPartsElems(filename, ".");
    assert base in segments;
    forall ch | ch in base
      ensures ch != '/' && ch != '.'
      ensures ch == '-' || ch in filename
    {
      assert ch in stem;
      JoinElems(kept, "-", ch);
      if ch !in "-" {
        var p :| p in kept && ch in p;
        assert p in pieces;
      }
    }
  }

  /** Dropping the last dotted piece and re-joining with `-` leaves the text before the last dot, dots hyphenated. */
  lemma StemOf(pre: string, ext: string)
    requires '.' !in ext
    ensures Stem(pre + "." + ext) == Replace(pre, ".", "-")
  {
    SplitConcat(pre, '.', ext);
    CharAbsentNotOccurs(ext, '.');
    SplitWithout(ext, ".");
    var pieces := Split(pre + "." + ext, ".");
    assert pieces[..|pieces| - 1] == Split(pre, ".");
    JoinSplitIsReplace(pre, ".", "-");
  }

  lemma LastSegmentAfterSlash(dir: string, base: string)
    requires '/' !in base
    ensures LastSegment(dir + "/" + base) == base
  {
    SplitConcat(dir, '/', base);
    CharAbsentNotOccurs(base, '/');
    SplitWithout(base, "/");
  }

  lemma LastSegmentOfPlain(base: string)
    requires '/' !in base
    ensures LastSegment(base) == base
  {
    CharAbsentNotOccurs(base, '/');
    SplitWithout(base, "/");
  }

  /** Hyphenating dots neither adds nor removes slashes, and distributes over `/`. */
  lemma DottedPath(dir: string, base: string)
    requires '/' !in base
    ensures '/' !in Replace(base, ".", "-")
    ensures Replace(dir + "/" + base, ".", "-") == Replace(dir, ".", "-") + "/" + Replace(base, ".", "-")
  {
    forall ch | ch in Replace(base, ".", "-")
      ensures ch != '/'
    {
      ReplaceCharElems(base, '.', "-", ch);
    }
    ReplaceCharConcat(dir + "/", base, '.', "-");
    ReplaceCharConcat(dir, "/", '.', "-");
    assert Replace("/", ".", "-") == "/";
  }

  /**
   * For a path `dir/base.ext` whose extension has no dot and whose base has no
   * slash, the class name depends on the base alone: dots inside the base
   * become hyphens, then the name is lower-cased and hyphenated.
   */
  lemma ClassNameOfPath(dir: string, base: string, ext: string)
    requires '/' !in base && '.' !in ext
    ensures FilenameToClassname(dir + "/" + base + "." + ext)
            == Hyphenate(Lower(Replace(base, ".", "-")))
  {
    StemOf(dir + "/" + base, ext);
    DottedPath(dir, base);
    LastSegmentAfterSlash(Replace(dir, ".", "-"), Replace(base, ".", "-"));
  }

  /** The same, for a bare `base.ext` with no directory part. */
  lemma ClassNameOfBareName(base: string, ext: string)
    requires '/' !in base && '.' !in ext
    ensures FilenameToClassname(base + "." + ext) == Hyphenate(Lower(Replace(base, ".", "-")))
  {
    StemOf(base, ext);
    DottedPath("", base);
    LastSegmentOfPlain(Replace(base, ".", "-"));
  }

  /**
   * The derivation is not idempotent: a class name has no `.` left, so
   * deriving again from it always gives "".
   */
  lemma RederiveGivesEmpty(filename: string)
    ensures FilenameToClassname(FilenameToClassname(filename)) == ""
  {
    assert '.' !in FilenameToClassname(filename);
  }

  /** A mixed-case name with a space, an underscore and an upper-case extension. */
  lemma ExampleMixedCase(filename: string)
    requires filename == "My Sprite_1.PNG"
    ensures FilenameToClassname(filename) == "my-sprite-1"
  {
    var base, ext := "My Sprite_1", "PNG";
    assert filename == base + "." + ext;
    ClassNameOfBareName(base, ext);
    CleanMixedCase(base);
  }

  lemma CleanMixedCase(base: string)
    requires base == "My Sprite_1"
    ensures Hyphenate(Lower(Replace(base, ".", "-"))) == "my-sprite-1"
  {
    assert Replace(base, ".", "-") == base by {
      assert '.' !in base;
      ReplaceCharAbsent(base, '.', "-");
    }
    var a, b, c := "My", " Sprite", "_1";
    assert base == a + b + c;
    assert Hyphenate(Lower(base)) == Hyphenate(Lower(a)) + Hyphenate(Lower(b)) + Hyphenate(Lower(c)) by {
      CleanConcat(a, b);
      CleanConcat(a + b, c);
    }
    assert Hyphenate(Lower(a)) == "my";
    assert Hyphenate(Lower(b)) == "-sprite";
    assert Hyphenate(Lower(c)) == "-1";
    assert "my" + "-sprite" + "-1" == "my-sprite-1";
  }

  /** A path as produced by a directory scan: the directory and the extension go. */
  lemma ExampleInDirectory(filename: string)
    requires filename == "icons/Arrow_Left.gif"
    ensures FilenameToClassname(filename) == "arrow-left"
  {
    var dir, base, ext := "icons", "Arrow_Left", "gif";
    assert filename == dir + "/" + base + "." + ext;
    ClassNameOfPath(dir, base, ext);
    CleanUnderscored(base);
  }

  lemma CleanUnderscored(base: string)
    requires base == "Arrow_Left"
    ensures Hyphenate(Lower(Replace(base, ".", "-"))) == "arrow-left"
  {
    assert Replace(base, ".", "-") == base by {
      assert '.' !in base;
      ReplaceCharAbsent(base, '.', "-");
    }
    var a, b := "Arrow", "_Left";
    assert base == a + b;
    assert Hyphenate(Lower(base)) == Hyphenate(Lower(a)) + Hyphenate(Lower(b)) by {
      CleanConcat(a, b);
    }
    assert Hyphenate(Lower(a)) == "arrow";
    assert Hyphenate(Lower(b)) == "-left";
    assert "arrow" + "-left" == "arrow-left";
  }

  /** Lower-casing and hyphenating work character by character. */
  lemma CleanConcat(a: string, b: string)
    ensures Hyphenate(Lower(a + b)) == Hyphenate(Lower(a)) + Hyphenate(Lower(b))
  {
  }

  lemma ExampleNoExtension()
    ensures FilenameToClassname("README") == ""
  {
  }
}

=== FILE: layout.dfy ===
/**
 * The horizontal strip layout of `SpriteOMatic.stitch_images`: images are
 * placed left to right in input order on a single row, the composite is as
 * wide as all images together and as tall as the tallest. Pixels are not
 * modelled; an image is its class name and its size.
 */
module Layout {

  datatype Image = Image(name: string, width: nat, height: nat)

  /** A placement in composite-pixel coordinates. */
  datatype Rect = Rect(x: nat, y: nat, w: nat, h: nat)

  /** The composite's size and the class name -> placement map. */
  datatype Sheet = Sheet(width: nat, height: nat, positions: map<string, Rect>)

  /** The sum of the widths, added up from the front. */
  function TotalWidth(images: seq<Image>): nat
  {
    if |images| == 0 then 0 else images[0].width + TotalWidth(images[1..])
  }

  /** Where the i-th image starts: the widths of the images before it. */
  function Offset(images: seq<Image>, i: nat): nat
    requires i <= |images|
  {
    TotalWidth(images[..i])
  }

  /** The rectangle the i-th image occupies in a strip layout. */
  function Placement(images: seq<Image>, i: nat): Rect
    requires i < |images|
  {
    Rect(Offset(images, i), 0, images[i].width, images[i].height)
  }

  function Names(images: seq<Image>): set<string>
  {
    set i | 0 <= i < |images| :: images[i].name
  }

  predicate DistinctNames(images: seq<Image>)
  {
    forall i, j :: 0 <= i < j < |images| ==> images[i].name != images[j].name
  }

  /** The index of the last image called `name`, or -1 when there is none. */
  function LastIndex(images: seq<Image>, name: string): (k: int)
    ensures -1 <= k < |images|
    ensures k == -1 <==> name !in Names(images)
    ensures 0 <= k ==> images[k].name == name
    ensures 0 <= k ==> forall j :: k < j < |images| ==> images[j].name != name
    decreases |images|
  {
    if |images| == 0 then -1
    else
      var init := images[..|images| - 1];
      NamesSnoc(init, images[|images| - 1]);
      assert images == init + [images[|images| - 1]];
      if images[|images| - 1].name == name then |images| - 1
      else LastIndex(init, name)
  }

  /**
   * What a strip layout of `images` is, stated without a fold: the width is
   * the sum of the widths, the height is the largest height (0 for no
   * images), the map has one key per distinct name, and each key maps to the
   * placement of the LAST image with that name.
   */
  predicate IsStripOf(images: seq<Image>, sheet: Sheet)
  {
    && sheet.width == TotalWidth(images)
    && (forall i :: 0 <= i < |images| ==> images[i].height <= sheet.height)
    && (|images| == 0 ==> sheet.height == 0)
    && (|images| > 0 ==> exists i :: 0 <= i < |images| && images[i].height == sheet.height)
    && sheet.positions.Keys == Names(images)
    && forall name :: name in sheet.positions ==>
         0 <= LastIndex(images, name) && sheet.positions[name] == Placement(images, LastIndex(images, name))
  }

  /**
   * One pass over the images in input order, as the two loops of
   * `stitch_images` do: the running width is the x cursor of the next image,
   * the height is the running maximum, and each image's placement is written
   * into the map under its name, replacing an earlier image of the same name.
   */
  function Stitch(images: seq<Image>): (sheet: Sheet)
    ensures IsStripOf(images, sheet)
    decreases |images|
  {
    if |images| == 0 then Sheet(0, 0, map[])
    else
      var init := images[..|images| - 1];
      var im := images[|images| - 1];
      var prev := Stitch(init);
      assert images == init + [im];
      StitchStep(init, im, prev);
      Step(prev, im)
  }

  /** The update one image makes to the running sheet: cursor, maximum, map entry. */
  function Step(prev: Sheet, im: Image): Sheet
  {
    Sheet(prev.width + im.width,
          if prev.height < im.height then im.height else prev.height,
          prev.positions[im.name := Rect(prev.width, 0, im.width, im.height)])
  }

  lemma StitchStep(init: seq<Image>, im: Image, prev: Sheet)
    requires IsStripOf(init, prev)
    ensures IsStripOf(init + [im], Step(prev, im))
  {
    SnocFacts(init, im);
    StepHeight(init, im, prev);
    StepPositions(init, im, prev);
  }

  /** The running maximum stays the tallest height seen, and is one of them. */
  lemma StepHeight(init: seq<Image>, im: Image, prev: Sheet)
    requires IsStripOf(init, prev)
    ensures forall i :: 0 <= i < |init + [im]| ==> (init + [im])[i].height <= Step(prev, im).height
    ensures exists i :: 0 <= i < |init + [im]| && (init + [im])[i].height == Step(prev, im).height
  {
    var images := init + [im];
    var next := Step(prev, im);
    forall i | 0 <= i < |images|
      ensures images[i].height <= next.height
    {
      if i < |init| {
        assert images[i] == init[i];
      }
    }
    if prev.height < im.height {
      assert images[|init|].height == next.height;
    } else if |init| == 0 {
      assert images[0].height == next.height;
    } else {
      var k :| 0 <= k < |init| && init[k].height == prev.height;
      assert images[k].height == next.height;
    }
  }

  /** Each name maps to the placement of its last image, the new one included. */
  lemma StepPositions(init: seq<Image>, im: Image, prev: Sheet)
    requires IsStripOf(init, prev)
    ensures forall name :: name in Step(prev, im).positions ==>
              0 <= LastIndex(init + [im], name)
              && Step(prev, im).positions[name] == Placement(init + [im], LastIndex(init + [im], name))
  {
    var images := init + [im];
    var next := Step(prev, im);
    SnocFacts(init, im);
    forall name | name in next.positions
      ensures 0 <= LastIndex(images, name) && next.positions[name] == Placement(images, LastIndex(images, name))
    {
      if name != im.name {
        assert name in prev.positions;
      }
    }
  }

  /** The layout is determined by its description: two sheets that both describe `images` are equal. */
  lemma StripIsUnique(images: seq<Image>, a: Sheet, b: Sheet)
    requires IsStripOf(images, a) && IsStripOf(images, b)
    ensures a == b
  {
    if |images| > 0 {
      var i :| 0 <= i < |images| && images[i].height == a.height;
      var j :| 0 <= j < |images| && images[j].height == b.height;
      assert a.height == b.height;
    }
    assert a.positions.Keys == b.positions.Keys;
    forall name | name in a.positions
      ensures a.positions[name] == b.positions[name]
    {
    }
    assert a.positions == b.positions;
  }

  // ---------------------------------------------------------------------------
  // Facts about appending one image
  // ---------------------------------------------------------------------------

  lemma {:induction false} TotalWidthConcat(a: seq<Image>, b: seq<Image>)
    ensures TotalWidth(a + b) == TotalWidth(a) + TotalWidth(b)
    decreases |a|
  {
    if |a| > 0 {
      assert (a + b)[1..] == a[1..] + b;
      TotalWidthConcat(a[1..], b);
    } else {
      assert a + b == b;
    }
  }

  lemma NamesSnoc(init: seq<Image>, im: Image)
    ensures Names(init + [im]) == Names(init) + {im.name}
  {
    var images := init + [im];
    forall n | n in Names(images)
      ensures n in Names(init) + {im.name}
    {
      var i :| 0 <= i < |images| && images[i].name == n;
      if i < |init| {
        assert init[i] == images[i];
      }
    }
    forall n | n in Names(init)
      ensures n in Names(images)
    {
      var i :| 0 <= i < |init| && init[i].name == n;
      assert images[i] == init[i];
    }
    assert images[|init|] == im;
  }

  lemma SnocFacts(init: seq<Image>, im: Image)
    ensures TotalWidth(init + [im]) == TotalWidth(init) + im.width
    ensures Names(init + [im]) == Names(init) + {im.name}
    ensures forall i :: 0 <= i < |init| ==> Placement(init + [im], i) == Placement(init, i)
    ensures Placement(init + [im], |init|) == Rect(TotalWidth(init), 0, im.width, im.height)
    ensures LastIndex(init + [im], im.name) == |init|
    ensures forall name :: name != im.name ==> LastIndex(init + [im], name) == LastIndex(init, name)
  {
    var images := init + [im];
    TotalWidthConcat(init, [im]);
    assert TotalWidth([im]) == im.width;
    NamesSnoc(init, im);
    forall i | 0 <= i < |init|
      ensures Placement(images, i) == Placement(init, i)
    {
      assert images[..i] == init[..i];
    }
    assert images[..|init|] == init;
    assert images[..|images| - 1] == init;
  }

  // ---------------------------------------------------------------------------
  // Geometry of the strip
  // ---------------------------------------------------------------------------

  /** An earlier image ends at or before a later one starts: no two placements overlap. */
  lemma PlacementsOrdered(images: seq<Image>, i: nat, j: nat)
    requires i < j < |images|
    ensures Placement(images, i).x + Placement(images, i).w <= Placement(images, j).x
  {
    TotalWidthConcat(images[..i], images[i..j]);
    assert images[..i] + images[i..j] == images[..j];
    assert images[i..j][0] == images[i];
  }

  /** Every placement lies inside the composite. */
  lemma PlacementInside(images: seq<Image>, i: nat)
    requires i < |images|
    ensures Placement(images, i).x + Placement(images, i).w <= Stitch(images).width
    ensures Placement(images, i).y + Placement(images, i).h <= Stitch(images).height
  {
    TotalWidthConcat(images[..i], images[i..]);
    assert images[..i] + images[i..] == images;
    assert images[i..][0] == images[i];
  }

  /**
   * What the fold records for the last image of each name: x is the sum of the
   * widths before it, y is 0, and the size is the image's own.
   */
  lemma PlacementOfImage(images: seq<Image>, i: nat)
    requires i < |images| && LastIndex(images, images[i].name) == i
    ensures images[i].name in Stitch(images).positions
    ensures Stitch(images).positions[images[i].name]
         == Rect(TotalWidth(images[..i]), 0, images[i].width, images[i].height)
  {
    assert images[i].name in Names(images);
  }

  /** With distinct names, every image is recorded under its name at its own placement. */
  lemma PlacementOfEachImage(images: seq<Image>)
    requires DistinctNames(images)
    ensures forall i :: 0 <= i < |images| ==>
      images[i].name in Stitch(images).positions &&
      Stitch(images).positions[images[i].name]
        == Rect(TotalWidth(images[..i]), 0, images[i].width, images[i].height)
  {
    forall i | 0 <= i < |images|
      ensures images[i].name in Stitch(images).positions
      ensures Stitch(images).positions[images[i].name]
           == Rect(TotalWidth(images[..i]), 0, images[i].width, images[i].height)
    {
      PlacementOfImage(images, i);
    }
  }

  predicate Inside(r: Rect, sheet: Sheet) {
    r.x + r.w <= sheet.width && r.y + r.h <= sheet.height
  }

  predicate Disjoint(a: Rect, b: Rect) {
    a.x + a.w <= b.x || b.x + b.w <= a.x || a.y + a.h <= b.y || b.y + b.h <= a.y
  }

  /** The map that `stitch_images` returns describes a packing: inside the composite and pairwise disjoint. */
  lemma SheetIsPacked(images: seq<Image>)
    ensures var sheet := Stitch(images);
            forall name :: name in sheet.positions ==> Inside(sheet.positions[name], sheet)
    ensures var sheet := Stitch(images);
            forall a, b :: a in sheet.positions && b in sheet.positions && a != b ==>
              Disjoint(sheet.positions[a], sheet.positions[b])
  {
    var sheet := Stitch(images);
    forall name | name in sheet.positions
      ensures Inside(sheet.positions[name], sheet)
    {
      PlacementInside(images, LastIndex(images, name));
    }
    forall a, b | a in sheet.positions && b in sheet.positions && a != b
      ensures Disjoint(sheet.positions[a], sheet.positions[b])
    {
      var i, j := LastIndex(images, a), LastIndex(images, b);
      if i < j {
        PlacementsOrdered(images, i, j);
      } else {
        PlacementsOrdered(images, j, i);
      }
    }
  }

  lemma DistinctSnoc(init: seq<Image>, im: Image)
    ensures DistinctNames(init + [im]) <==> DistinctNames(init) && im.name !in Names(init)
  {
    var images := init + [im];
    if DistinctNames(images) {
      forall i, j | 0 <= i < j < |init|
        ensures init[i].name != init[j].name
      {
        assert images[i] == init[i] && images[j] == init[j];
      }
      forall k | 0 <= k < |init|
        ensures init[k].name != im.name
      {
        assert images[k] == init[k] && images[|init|] == im;
      }
    }
    if DistinctNames(init) && im.name !in Names(init) {
      forall i, j | 0 <= i < j < |images|
        ensures images[i].name != images[j].name
      {
        assert images[i] == init[i];
        if j < |init| {
          assert images[j] == init[j];
        } else {
          assert init[i].name in Names(init);
        }
      }
    }
  }

  /** There are never more distinct names than images, and exactly as many only when no name repeats. */
  lemma {:induction false} NamesCardinality(images: seq<Image>)
    ensures |Names(images)| <= |images|
    ensures |Names(images)| == |images| <==> DistinctNames(images)
    decreases |images|
  {
    if |images| == 0 {
      assert Names(images) == {};
    } else {
      var init := images[..|images| - 1];
      var im := images[|images| - 1];
      assert images == init + [im];
      NamesCardinality(init);
      NamesSnoc(init, im);
      DistinctSnoc(init, im);
      if im.name in Names(init) {
        assert Names(images) == Names(init);
      } else {
        assert |Names(images)| == |Names(init)| + 1;
      }
    }
  }

  /**
   * The map has one entry per distinct name: never more entries than images,
   * and exactly as many only when no two images share a name.
   */
  lemma EntriesPerName(images: seq<Image>)
    ensures |Stitch(images).positions| == |Names(images)| <= |images|
    ensures |Stitch(images).positions| == |images| <==> DistinctNames(images)
  {
    var m := Stitch(images).positions;
    assert |m| == |m.Keys|;
    NamesCardinality(images);
  }

  /** Three images of 10 x 20, 5 x 30 and 8 x 8 make a 23 x 30 composite, placed at x = 0, 10, 15. */
  lemma ExampleThreeImages(images: seq<Image>)
    requires images == [Image("a", 10, 20), Image("b", 5, 30), Image("c", 8, 8)]
    ensures Stitch(images) == Sheet(23, 30, map["a" := Rect(0, 0, 10, 20),
                                                "b" := Rect(10, 0, 5, 30),
                                                "c" := Rect(15, 0, 8, 8)])
  {
    var s1 := Stitch(images[..1]);
    var s2 := Stitch(images[..2]);
    assert Stitch(images[..0]) == Sheet(0, 0, map[]);
    assert images[..1][..0] == images[..0];
    assert s1 == Sheet(10, 20, map["a" := Rect(0, 0, 10, 20)]);
    assert images[..2][..1] == images[..1];
    assert s2 == Sheet(15, 30, map["a" := Rect(0, 0, 10, 20), "b" := Rect(10, 0, 5, 30)]);
    assert images[..2] == images[..|images| - 1];
  }

  // ---------------------------------------------------------------------------
  // The blank composite
  // ---------------------------------------------------------------------------

  datatype Mode = RGBA | RGB

  /** The blank composite `Image.new` creates before any image is pasted. */
  datatype Canvas = Canvas(mode: Mode, width: nat, height: nat, fill: seq<nat>)

  /**
   * With a non-zero alpha flag the composite keeps an alpha channel and is
   * filled opaque white; with 0 it is RGB white.
   */
  function NewCanvas(alpha: int, sheet: Sheet): (c: Canvas)
    ensures c.mode == RGBA <==> alpha != 0
    ensures c.width == sheet.width && c.height == sheet.height
    ensures |c.fill| == (if c.mode == RGBA then 4 else 3)
    ensures forall v :: v in c.fill ==> v == 255
  {
    if alpha != 0 then Canvas(RGBA, sheet.width, sheet.height, [255, 255, 255, 255])
    else Canvas(RGB, sheet.width, sheet.height, [255, 255, 255])
  }
}

=== FILE: numerals.dfy ===
/**
 * Decimal rendering of integers as Python's `str(int)` (and `%s` with an
 * int argument) produces it, with a parser used to state that the rendering
 * loses nothing.
 */
module Numerals {

  import opened Wrappers

  predicate IsDigit(ch: char) {
    '0' <= ch <= '9'
  }

  predicate AllDigits(s: string) {
    forall i :: 0 <= i < |s| ==> IsDigit(s[i])
  }

  function DigitChar(d: nat): char
    requires d < 10
  {
    ('0' as int + d) as char
  }

  function DigitValue(ch: char): nat
    requires IsDigit(ch)
  {
    ch as int - '0' as int
  }

  /** Decimal digits of `n`, most significant first, without leading zeros. */
  function NatToString(n: nat): (s: string)
    ensures |s| >= 1 && AllDigits(s)
    ensures |s| > 1 ==> s[0] != '0'
    decreases n
  {
    if n < 10 then [DigitChar(n)]
    else NatToString(n / 10) + [DigitChar(n % 10)]
  }

  /** `str(n)`: a leading `-` for negative numbers, then the digits of `|n|`. */
  function IntToString(n: int): (s: string)
    ensures |s| >= 1
    ensures forall ch :: ch in s ==> ch == '-' || IsDigit(ch)
    ensures n < 0 <==> s[0] == '-'
  {
    if n < 0 then "-" + NatToString(-n) else NatToString(n)
  }

  /** The value of a string of decimal digits. */
  function DigitsValue(s: string): nat
    requires AllDigits(s)
  {
    if |s| == 0 then 0
    else 10 * DigitsValue(s[..|s| - 1]) + DigitValue(s[|s| - 1])
  }

  /** Reads back an optionally negative decimal integer. */
  function ParseInt(s: string): Option<int>
  {
    if |s| >= 2 && s[0] == '-' && AllDigits(s[1..]) then Some(0 - DigitsValue(s[1..]))
    else if |s| >= 1 && AllDigits(s) then Some(DigitsValue(s))
    else None
  }

  lemma {:induction false} NatToStringRoundTrip(n: nat)
    ensures DigitsValue(NatToString(n)) == n
    decreases n
  {
    if n >= 10 {
      var s := NatToString(n);
      NatToStringRoundTrip(n / 10);
      assert s[..|s| - 1] == NatToString(n / 10);
    }
  }

  /** Every integer, negative ones included, is read back from its rendering. */
  lemma IntToStringRoundTrip(n: int)
    ensures ParseInt(IntToString(n)) == Some(n)
  {
    if n < 0 {
      NatToStringRoundTrip(-n);
      assert IntToString(n)[1..] == NatToString(-n);
    } else {
      NatToStringRoundTrip(n);
    }
  }

  /** Rendering is injective: distinct integers never print the same. */
  lemma IntToStringInjective(m: int, n: int)
    requires IntToString(m) == IntToString(n)
    ensures m == n
  {
    IntToStringRoundTrip(m);
    IntToStringRoundTrip(n);
  }
}

=== FILE: paths.dfy ===
/**
 * The relative reference from the stylesheet to `sprites.png`, computed by
 * string-splitting absolute directory names on the working directory
 * (`create_css`, lines 128-133). The working directory is a parameter here.
 */
module Paths {

  import opened Strings

  /** `os.path.join(a, b)` on POSIX. */
  function PathJoin(a: string, b: string): (p: string)
    ensures EndsWith(p, b)
    ensures !StartsWith(b, "/") ==> StartsWith(p, a)
    ensures !StartsWith(b, "/") && a != "" && a[|a| - 1] != '/' ==> p == a + "/" + b
    ensures !StartsWith(b, "/") && (a == "" || a[|a| - 1] == '/') ==> p == a + b
    ensures StartsWith(b, "/") ==> p == b
    ensures forall ch :: ch in p ==> ch in a || ch in b || ch == '/'
  {
    if StartsWith(b, "/") then b
    else if a == "" || a[|a| - 1] == '/' then
      assert (a + b)[|a + b| - |b|..] == b;
      assert (a + b)[..|a|] == a;
      a + b
    else
      assert (a + "/" + b)[|a + "/" + b| - |b|..] == b;
      assert (a + "/" + b)[..|a|] == a;
      a + "/" + b
  }

  function CountNonEmpty(parts: seq<string>): nat
  {
    if |parts| == 0 then 0
    else (if parts[0] != "" then 1 else 0) + CountNonEmpty(parts[1..])
  }

  /** Line 128: the number of `../` is the number of non-empty pieces of `cssDir` split on `curdir`. */
  function ParentLevels(curdir: string, cssDir: string): nat
    requires |curdir| > 0
  {
    CountNonEmpty(Split(cssDir, curdir))
  }

  /** Python's `p.startswith('/') and p[1:] or p`: one leading slash goes, unless nothing would be left. */
  function StripSlash(p: string): string
  {
    if StartsWith(p, "/") && p[1..] != "" then p[1..] else p
  }

  /**
   * Lines 130-131: the second piece of `spriteDir` split on `curdir`, joined
   * with `sprites.png`, one leading slash removed.
   */
  function SpriteRelPath(curdir: string, spriteDir: string): (p: string)
    requires |curdir| > 0 && StartsWith(spriteDir, curdir)
    ensures EndsWith(p, "sprites.png")
  {
    SplitAtPrefix(spriteDir, curdir);
    var joined := PathJoin(Split(spriteDir, curdir)[1], "sprites.png");
    StripKeepsFileName(joined);
    StripSlash(joined)
  }

  lemma StripKeepsFileName(p: string)
    requires EndsWith(p, "sprites.png")
    ensures EndsWith(StripSlash(p), "sprites.png")
  {
    if StartsWith(p, "/") && p[1..] != "" {
      assert p[..1][0] == p[0];
      assert p[|p| - 11..][0] == p[|p| - 11];
      assert p[|p| - 11] == 's';
      assert |p| > 11;
      assert p[1..][|p[1..]| - 11..] == p[|p| - 11..];
    }
  }

  /** Lines 132-133: the URL of the composite as the stylesheet references it. */
  function SpriteUrl(curdir: string, spriteDir: string, cssDir: string): string
    requires |curdir| > 0 && StartsWith(spriteDir, curdir)
  {
    var levels := ParentLevels(curdir, cssDir);
    if levels != 0 then Repeat("../", levels) + SpriteRelPath(curdir, spriteDir)
    else SpriteRelPath(curdir, spriteDir)
  }

  /** The URL is one `../` per level, then the sprite path, so it always ends with `sprites.png`. */
  lemma UrlShape(curdir: string, spriteDir: string, cssDir: string)
    requires |curdir| > 0 && StartsWith(spriteDir, curdir)
    ensures EndsWith(SpriteUrl(curdir, spriteDir, cssDir), "sprites.png")
    ensures |SpriteUrl(curdir, spriteDir, cssDir)|
         == 3 * ParentLevels(curdir, cssDir) + |SpriteRelPath(curdir, spriteDir)|
  {
    var levels := ParentLevels(curdir, cssDir);
    var up, rel := Repeat("../", levels), SpriteRelPath(curdir, spriteDir);
    var url := SpriteUrl(curdir, spriteDir, cssDir);
    assert url == up + rel;
    assert |url| == 3 * levels + |rel| by {
      RepeatLength("../", levels);
    }
    assert EndsWith(url, "sprites.png") by {
      EndsWithAppend(up, rel, "sprites.png");
    }
  }

  // ---------------------------------------------------------------------------
  // What the reference looks like
  // ---------------------------------------------------------------------------

  /** A directory that is the working directory itself needs no `../`. */
  lemma NoParentAtCurdir(curdir: string)
    requires |curdir| > 0
    ensures ParentLevels(curdir, curdir) == 0
  {
    assert curdir[..|curdir|] == curdir;
    assert curdir[|curdir|..] == "";
    assert Split("", curdir) == [""];
    assert Split(curdir, curdir) == ["", ""];
    assert ["", ""][1..] == [""];
    assert [""][1..] == [];
    assert CountNonEmpty([""]) == 0;
    assert CountNonEmpty(["", ""]) == 0;
  }

  /**
   * A directory strictly below the working directory, in whose remainder the
   * working directory's path does not occur again, gets exactly one `../`,
   * however many levels below it is.
   */
  lemma OneParentBelowCurdir(curdir: string, rest: string)
    requires |curdir| > 0 && rest != ""
    requires !Occurs(rest, curdir)
    ensures ParentLevels(curdir, curdir + rest) == 1
  {
    var d := curdir + rest;
    assert d[..|curdir|] == curdir;
    assert d[|curdir|..] == rest;
    SplitAtPrefix(d, curdir);
    SplitWithout(rest, curdir);
    assert Split(d, curdir) == ["", rest];
    assert ["", rest][1..] == [rest];
    assert [rest][1..] == [];
    assert CountNonEmpty([rest]) == 1;
    assert CountNonEmpty(["", rest]) == 1;
  }

  /** With the stylesheet in the working directory, the URL is the sprite path alone. */
  lemma UrlAtCurdir(curdir: string, spriteDir: string)
    requires |curdir| > 0 && StartsWith(spriteDir, curdir)
    ensures SpriteUrl(curdir, spriteDir, curdir) == SpriteRelPath(curdir, spriteDir)
  {
    NoParentAtCurdir(curdir);
  }

  /** With the stylesheet below the working directory, the URL is one `../` and the sprite path. */
  lemma UrlBelowCurdir(curdir: string, spriteDir: string, rest: string)
    requires |curdir| > 0 && StartsWith(spriteDir, curdir)
    requires rest != "" && !Occurs(rest, curdir)
    ensures SpriteUrl(curdir, spriteDir, curdir + rest) == "../" + SpriteRelPath(curdir, spriteDir)
  {
    OneParentBelowCurdir(curdir, rest);
    assert Repeat("../", 1) == "../";
  }

  /** With the composite in the working directory, the sprite path is `sprites.png`. */
  lemma SpritePathAtCurdir(curdir: string)
    requires |curdir| > 0
    ensures SpriteRelPath(curdir, curdir) == "sprites.png"
  {
    assert curdir[..|curdir|] == curdir;
    assert curdir[|curdir|..] == "";
    SplitAtPrefix(curdir, curdir);
    assert Split("", curdir) == [""];
    assert Split(curdir, curdir)[1] == "";
    assert PathJoin("", "sprites.png") == "sprites.png";
    assert "sprites.png"[..1] != "/" by {
      assert "sprites.png"[..1][0] == 's';
    }
  }

  /**
   * When the working directory occurs in the sprite directory only as its
   * prefix, the sprite path is what follows that prefix without its leading
   * slash, then `/sprites.png`.
   */
  lemma SpritePathInSubdir(curdir: string, d: string)
    requires |curdir| > 0 && !Occurs("/" + d, curdir)
    requires d != "" && d[|d| - 1] != '/'
    ensures SpriteRelPath(curdir, curdir + "/" + d) == d + "/sprites.png"
  {
    var s := curdir + "/" + d;
    assert s == curdir + ("/" + d);
    PieceAfterPrefix(curdir, "/" + d);
    JoinedSubdir(d);
  }

  /** Split on a prefix that does not recur, the text's second piece is what follows the prefix. */
  lemma PieceAfterPrefix(curdir: string, rest: string)
    requires |curdir| > 0 && !Occurs(rest, curdir)
    ensures StartsWith(curdir + rest, curdir)
    ensures Split(curdir + rest, curdir)[1] == rest
  {
    var s := curdir + rest;
    assert s[..|curdir|] == curdir;
    assert s[|curdir|..] == rest;
    SplitAtPrefix(s, curdir);
    SplitWithout(rest, curdir);
  }

  /** `/d` joined with the file name, leading slash stripped, is `d/sprites.png`. */
  lemma JoinedSubdir(d: string)
    requires d != "" && d[|d| - 1] != '/'
    ensures StripSlash(PathJoin("/" + d, "sprites.png")) == d + "/sprites.png"
  {
    var rest := "/" + d;
    assert !StartsWith("sprites.png", "/") by {
      assert "sprites.png"[..1][0] == 's';
    }
    assert rest[|rest| - 1] == d[|d| - 1];
    var joined := PathJoin(rest, "sprites.png");
    assert joined == rest + "/" + "sprites.png";
    var tail := d + "/sprites.png";
    assert "/" + "sprites.png" == "/sprites.png";
    AppendAssoc(rest, "/", "sprites.png");
    AppendAssoc("/", d, "/sprites.png");
    DropAppend("/", tail);
  }

  lemma {:induction false} RepeatElems(s: string, n: nat, ch: char)
    requires ch in Repeat(s, n)
    ensures ch in s
    decreases n
  {
    if ch !in s {
      RepeatElems(s, n - 1, ch);
    }
  }

  /** Directory names without a line break give a URL without one. */
  lemma UrlHasNoBreak(curdir: string, spriteDir: string, cssDir: string)
    requires |curdir| > 0 && StartsWith(spriteDir, curdir)
    requires '\n' !in spriteDir
    ensures '\n' !in SpriteUrl(curdir, spriteDir, cssDir)
  {
    RelPathHasNoBreak(curdir, spriteDir);
    var levels := ParentLevels(curdir, cssDir);
    if '\n' in Repeat("../", levels) {
      RepeatElems("../", levels, '\n');
    }
  }

  lemma RelPathHasNoBreak(curdir: string, spriteDir: string)
    requires |curdir| > 0 && StartsWith(spriteDir, curdir)
    requires '\n' !in spriteDir
    ensures '\n' !in SpriteRelPath(curdir, spriteDir)
  {
    SplitAtPrefix(spriteDir, curdir);
    var piece := Split(spriteDir, curdir)[1];
    SplitPartsElems(spriteDir, curdir);
    assert piece in Split(spriteDir, curdir);
    assert '\n' !in "sprites.png";
  }

  /** Composite in the working directory, stylesheet anywhere below it: `../sprites.png`. */
  lemma UrlFromBelowToCurdir(curdir: string, rest: string)
    requires |curdir| > 0 && rest != "" && !Occurs(rest, curdir)
    ensures SpriteUrl(curdir, curdir, curdir + rest) == "../" + "sprites.png"
  {
    assert curdir[..|curdir|] == curdir;
    UrlBelowCurdir(curdir, curdir, rest);
    SpritePathAtCurdir(curdir);
  }

  /** A stylesheet directory two levels below the working directory gets one `../`, not two. */
  lemma ExampleTwoLevelsDown(curdir: string, cssDir: string)
    requires curdir == "/home/u" && cssDir == "/home/u/css/sub"
    ensures SpriteUrl(curdir, curdir, cssDir) == "../" + "sprites.png"
  {
    var rest := "/css/sub";
    assert cssDir == curdir + rest;
    HomeNotInRest();
    UrlFromBelowToCurdir(curdir, rest);
  }

  lemma HomeNotInRest()
    ensures !Occurs("/css/sub", "/home/u")
  {
    var rest, home := "/css/sub", "/home/u";
    forall i | 0 <= i <= |rest|
      ensures !OccursAt(rest, home, i)
    {
      if i + |home| <= |rest| {
        assert rest[i..i + |home|][1] != home[1];
      }
    }
  }

  /**
   * When the working directory's path occurs again inside the sprite
   * directory, only the text up to that second occurrence is kept.
   */
  lemma ExampleRepeatedCurdir(curdir: string, spriteDir: string)
    requires curdir == "/x" && spriteDir == "/x/xy"
    ensures SpriteUrl(curdir, spriteDir, curdir) == "sprites.png"
  {
    NoParentAtCurdir(curdir);
    assert spriteDir[..2] == curdir;
    assert spriteDir[2..] == "/xy";
    assert "/xy"[..2] == curdir;
    assert "/xy"[2..] == "y";
    assert Split("y", curdir) == ["y"];
    assert Split(spriteDir, curdir) == ["", "", "y"];
    assert PathJoin("", "sprites.png") == "sprites.png";
  }

  /**
   * A further occurrence of the working directory's path that leaves a
   * non-empty piece adds a `../`: `/x/y/xz` split on `/x` has the two
   * non-empty pieces `/y` and `z`.
   */
  lemma ExampleRecurringName(curdir: string, cssDir: string)
    requires curdir == "/x" && cssDir == "/x/y/xz"
    ensures ParentLevels(curdir, cssDir) == 2
    ensures SpriteUrl(curdir, curdir, cssDir) == "../../" + "sprites.png"
  {
    SplitRecurringName(curdir, cssDir);
    assert CountNonEmpty(["", "/y", "z"]) == 2;
    SpritePathAtCurdir(curdir);
    assert Repeat("../", 2) == "../../";
  }

  lemma SplitRecurringName(curdir: string, cssDir: string)
    requires curdir == "/x" && cssDir == "/x/y/xz"
    ensures Split(cssDir, curdir) == ["", "/y", "z"]
  {
    assert cssDir[..2] == curdir && cssDir[2..] == "/y/xz";
    assert "/y/xz"[..2][1] != curdir[1] && "/y/xz"[1..] == "y/xz";
    assert "y/xz"[..2][0] != curdir[0] && "y/xz"[1..] == "/xz";
    assert "/xz"[..2] == curdir && "/xz"[2..] == "z";
    assert Split("z", curdir) == ["z"];
    assert Split("/xz", curdir) == ["", "z"];
    var r1 := Split("/xz", curdir);
    assert Split("y/xz", curdir) == [['y'] + r1[0]] + r1[1..];
    assert ['y'] + "" == "y";
    var r2 := Split("y/xz", curdir);
    assert r2 == ["y", "z"];
    assert Split("/y/xz", curdir) == [['/'] + r2[0]] + r2[1..];
    assert ['/'] + "y" == "/y";
  }

  /**
   * A further occurrence of the working directory's path that leaves only
   * empty pieces adds nothing: `/x/x` split on `/x` is three empty pieces, so a
   * stylesheet there refers to the composite as if it sat beside it.
   */
  lemma ExampleAdjacentRepeat(curdir: string, cssDir: string)
    requires curdir == "/x" && cssDir == "/x/x"
    ensures ParentLevels(curdir, cssDir) == 0
    ensures SpriteUrl(curdir, curdir, cssDir) == "sprites.png"
  {
    assert cssDir[..2] == curdir && cssDir[2..] == curdir;
    assert curdir[..2] == curdir && curdir[2..] == "";
    assert Split("", curdir) == [""];
    assert Split(curdir, curdir) == ["", ""];
    assert Split(cssDir, curdir) == ["", "", ""];
    assert ParentLevels(curdir, cssDir) == CountNonEmpty(["", "", ""]) == 0;
    SpritePathAtCurdir(curdir);
    assert SpriteUrl(curdir, curdir, cssDir) == SpriteRelPath(curdir, curdir);
  }
}

=== FILE: preview.dfy ===
/**
 * The preview page `create_html` writes: the HTML_TPL template (lines 17-31)
 * linking the stylesheet, with one `<div class="sprite NAME">` per class name
 * in the order given, repeated names included.
 */
module Preview {

  import opened Wrappers
  import opened Strings
  import opened Paths

  /** What a reader of the page can recover: the stylesheet link and the div class names in order. */
  datatype Page = Page(href: string, names: seq<string>)

  const DivOpen: string := "    <div class=\"sprite "
  const DivClose: string := "\"></div>"
  const LinkOpen: string := "    <link rel=\"stylesheet\" " + "type=\"text/css\" href=\""
  const LinkClose: string := "\"></link>"

  /** Line 162, without its line break. */
  function DivLine(name: string): string
  {
    DivOpen + name + DivClose
  }

  /** Lines 160-162: the body accumulates one div line per class name. */
  function Body(names: seq<string>): string
  {
    if |names| == 0 then "" else DivLine(names[0]) + "\n" + Body(names[1..])
  }

  /** Line 164: the stylesheet is linked by its directory joined with `sprites.css`. */
  function StylesheetHref(cssDir: string): string
  {
    PathJoin(cssDir, "sprites.css")
  }

  /**
   * HTML_TPL (lines 17-31) up to its body placeholder, line by line: a blank
   * first line, the link to the stylesheet, the inline style, `<body>`.
   */
  function HeadLines(href: string): seq<string>
  {
    ["", "<html>", "  <head>", LinkOpen + href + LinkClose] + StyleLines
  }

  const StyleLines: seq<string> :=
    ["    <style>", "      body { background: #ccc; }", "      div { margin: 2px; }", "    </style>", "  </head>", "  <body>"]

  /** HTML_TPL after its body placeholder: a line break, then the closing tags. */
  const TailLines: seq<string> := ["", "  </body>", "</html>", ""]

  function HeadText(href: string): string
  {
    Join(HeadLines(href), "\n") + "\n"
  }

  const TailText: string := Join(TailLines, "\n")

  /** The text of `sprites.html`. */
  function CreateHtml(cssDir: string, names: seq<string>): string
  {
    HeadText(StylesheetHref(cssDir)) + Body(names) + TailText
  }

  // ---------------------------------------------------------------------------
  // Reading the page back
  // ---------------------------------------------------------------------------

  function DivLines(names: seq<string>): seq<string>
  {
    if |names| == 0 then [] else [DivLine(names[0])] + DivLines(names[1..])
  }

  function PageLines(href: string, names: seq<string>): seq<string>
  {
    HeadLines(href) + DivLines(names) + TailLines
  }

  function ParseDivs(lines: seq<string>): Option<seq<string>>
  {
    if |lines| == 0 then Some([])
    else
      var name :- Between(lines[0], DivOpen, DivClose);
      var rest :- ParseDivs(lines[1..]);
      Some([name] + rest)
  }

  /** Reads the link and the div class names from a preview page. */
  function ParsePreview(text: string): Option<Page>
  {
    var lines := Split(text, "\n");
    if |lines| < 14 || lines[..3] != ["", "<html>", "  <head>"] || lines[4..10] != StyleLines
       || lines[|lines| - 4..] != TailLines then None
    else
      var href :- Between(lines[3], LinkOpen, LinkClose);
      var names :- ParseDivs(lines[10..|lines| - 4]);
      Some(Page(href, names))
  }

  lemma {:induction false} BodyAsLines(names: seq<string>, tail: seq<string>)
    requires |tail| >= 1
    ensures Body(names) + Join(tail, "\n") == Join(DivLines(names) + tail, "\n")
    decreases |names|
  {
    if |names| == 0 {
      assert DivLines(names) + tail == tail;
    } else {
      BodyAsLines(names[1..], tail);
      var rest := DivLines(names[1..]) + tail;
      JoinCons(DivLine(names[0]), rest, "\n");
      assert DivLines(names) + tail == [DivLine(names[0])] + rest;
    }
  }

  /** A head, the body, and a tail are the lines of all three joined. */
  lemma FrameAsLines(head: seq<string>, names: seq<string>, tail: seq<string>)
    requires |head| >= 1 && |tail| >= 1
    ensures Join(head, "\n") + "\n" + Body(names) + Join(tail, "\n") == Join(head + (DivLines(names) + tail), "\n")
  {
    BodyAsLines(names, tail);
    JoinAppend(head, DivLines(names) + tail, "\n");
  }

  lemma PageAsLines(cssDir: string, names: seq<string>)
    ensures CreateHtml(cssDir, names) == Join(PageLines(StylesheetHref(cssDir), names), "\n")
  {
    var href := StylesheetHref(cssDir);
    FrameAsLines(HeadLines(href), names, TailLines);
    assert PageLines(href, names) == HeadLines(href) + (DivLines(names) + TailLines);
  }

  lemma {:induction false} DivLinesFacts(names: seq<string>)
    ensures |DivLines(names)| == |names|
    ensures forall i :: 0 <= i < |names| ==> DivLines(names)[i] == DivLine(names[i])
    decreases |names|
  {
    if |names| > 0 {
      DivLinesFacts(names[1..]);
    }
  }

  lemma {:induction false} ParseDivsRoundTrip(names: seq<string>)
    ensures ParseDivs(DivLines(names)) == Some(names)
    decreases |names|
  {
    if |names| > 0 {
      BetweenRoundTrip(DivOpen, names[0], DivClose);
      ParseDivsRoundTrip(names[1..]);
      assert DivLines(names)[1..] == DivLines(names[1..]);
      assert names == [names[0]] + names[1..];
    }
  }

  lemma LinkClean()
    ensures '\n' !in LinkOpen && '\n' !in LinkClose
  {
    assert '\n' !in "    <link rel=\"stylesheet\" " && '\n' !in "type=\"text/css\" href=\"";
  }

  lemma StyleClean()
    ensures forall l :: l in StyleLines ==> '\n' !in l
  {
    assert '\n' !in "      body { background: #ccc; }";
  }

  lemma TailClean()
    ensures forall l :: l in TailLines ==> '\n' !in l
  {
  }

  lemma HeadLinesClean(href: string)
    requires '\n' !in href
    ensures forall l :: l in HeadLines(href) ==> '\n' !in l
  {
    LinkClean();
    StyleClean();
  }

  lemma DelimitersClean()
    ensures '\n' !in DivOpen && '\n' !in DivClose
  {
  }

  lemma DivLinesClean(names: seq<string>)
    requires forall i :: 0 <= i < |names| ==> '\n' !in names[i]
    ensures forall l :: l in DivLines(names) ==> '\n' !in l
  {
    DivLinesFacts(names);
    DelimitersClean();
    forall l | l in DivLines(names)
      ensures '\n' !in l
    {
      var i :| 0 <= i < |DivLines(names)| && DivLines(names)[i] == l;
    }
  }

  lemma PageLinesClean(href: string, names: seq<string>)
    requires '\n' !in href
    requires forall i :: 0 <= i < |names| ==> '\n' !in names[i]
    ensures forall l :: l in PageLines(href, names) ==> '\n' !in l
  {
    HeadLinesClean(href);
    DivLinesClean(names);
    TailClean();
  }

  /**
   * The page reads back as its stylesheet link and exactly the class names it
   * was given, one div each, in order, repeated names kept.
   */
  lemma ParsePreviewRoundTrip(cssDir: string, names: seq<string>)
    requires '\n' !in StylesheetHref(cssDir)
    requires forall i :: 0 <= i < |names| ==> '\n' !in names[i]
    ensures ParsePreview(CreateHtml(cssDir, names)) == Some(Page(StylesheetHref(cssDir), names))
  {
    var href := StylesheetHref(cssDir);
    var text := CreateHtml(cssDir, names);
    var lines := PageLines(href, names);
    assert Split(text, "\n") == lines by {
      PageAsLines(cssDir, names);
      PageLinesClean(href, names);
      SplitJoinRoundTrip(lines, '\n');
    }
    PageLinesShape(href, names);
    BetweenRoundTrip(LinkOpen, href, LinkClose);
    ParseDivsRoundTrip(names);
  }

  /** Where the link, the style, the divs and the closing tags sit among the page's lines. */
  lemma PageLinesShape(href: string, names: seq<string>)
    ensures var lines := PageLines(href, names);
            && |lines| == 14 + |names|
            && lines[..3] == ["", "<html>", "  <head>"]
            && lines[3] == LinkOpen + href + LinkClose
            && lines[4..10] == StyleLines
            && lines[10..|lines| - 4] == DivLines(names)
            && lines[|lines| - 4..] == TailLines
  {
    DivLinesFacts(names);
    var head, divs := HeadLines(href), DivLines(names);
    var lines := PageLines(href, names);
    assert |head| == 10;
    assert lines[..10] == head;
    assert lines[10..|lines| - 4] == divs;
    assert head[..3] == ["", "<html>", "  <head>"];
    assert head[4..10] == StyleLines;
  }

  /** The page has one div per name given: its count is the number of images, not of distinct names. */
  lemma DivCount(cssDir: string, names: seq<string>)
    requires '\n' !in StylesheetHref(cssDir)
    requires forall i :: 0 <= i < |names| ==> '\n' !in names[i]
    ensures ParsePreview(CreateHtml(cssDir, names)).Some?
    ensures |ParsePreview(CreateHtml(cssDir, names)).value.names| == |names|
  {
    ParsePreviewRoundTrip(cssDir, names);
  }
}

=== FILE: spriteomatic.dfy ===
/**
 * `SpriteOMatic.run`: derive class names, lay the images out, then write the
 * stylesheet and the preview page. The three artifacts are returned as values.
 */
module SpriteOMatic {

  import opened Wrappers
  import opened Strings
  import opened ClassName
  import opened Layout
  import opened Paths
  import opened Stylesheet
  import opened Preview

  /** A file found in the image directory, with the size its decoder reports. */
  datatype SourceFile = SourceFile(path: string, width: nat, height: nat)

  /** The blank composite, the layout, and the texts of `sprites.css` and `sprites.html`. */
  datatype Outputs = Outputs(canvas: Canvas, sheet: Sheet, css: string, html: string)

  /** Line 79: each file becomes an image named by its class name. */
  function LoadImages(files: seq<SourceFile>): (images: seq<Image>)
    ensures |images| == |files|
    ensures forall i :: 0 <= i < |files| ==>
      images[i].width == files[i].width && images[i].height == files[i].height
    ensures forall i :: 0 <= i < |files| ==> images[i].name == FilenameToClassname(files[i].path)
    ensures forall i, ch :: 0 <= i < |files| && ch in images[i].name ==> !Forbidden(ch)
  {
    seq(|files|, i requires 0 <= i < |files| => Image(FilenameToClassname(files[i].path), files[i].width, files[i].height))
  }

  /** Line 67: the class names in image order, repeats included. */
  function ClassNames(images: seq<Image>): seq<string>
  {
    seq(|images|, i requires 0 <= i < |images| => images[i].name)
  }

  /**
   * One run over an already scanned and decoded list of files. `curdir` is
   * the working directory, `order` the order in which the placement map is
   * visited when the stylesheet is written.
   */
  function Run(curdir: string, spriteDir: string, cssDir: string, alpha: int,
               files: seq<SourceFile>, order: seq<string>): (out: Outputs)
    requires |curdir| > 0 && StartsWith(spriteDir, curdir)
    requires Enumerates(order, Names(LoadImages(files)))
    ensures IsStripOf(LoadImages(files), out.sheet)
    ensures out.canvas.width == out.sheet.width && out.canvas.height == out.sheet.height
    ensures out.canvas.mode == RGBA <==> alpha != 0
    ensures forall name, ch :: name in out.sheet.positions && ch in name ==> !Forbidden(ch)
  {
    var images := LoadImages(files);
    var sheet := Stitch(images);
    Outputs(NewCanvas(alpha, sheet), sheet,
            CssText(curdir, spriteDir, cssDir, sheet.positions, order),
            CreateHtml(cssDir, ClassNames(images)))
  }

  predicate NoBreaks(spriteDir: string, cssDir: string, files: seq<SourceFile>)
  {
    && '\n' !in spriteDir
    && '\n' !in cssDir
    && forall i :: 0 <= i < |files| ==> '\n' !in files[i].path
  }

  /** Class names carry no line break when the paths they come from carry none. */
  lemma NamesHaveNoBreaks(files: seq<SourceFile>)
    requires forall i :: 0 <= i < |files| ==> '\n' !in files[i].path
    ensures forall i :: 0 <= i < |files| ==> '\n' !in LoadImages(files)[i].name
    ensures forall name :: name in Names(LoadImages(files)) ==> '\n' !in name
  {
    forall i | 0 <= i < |files|
      ensures '\n' !in LoadImages(files)[i].name
    {
      ClassNameHasNoBreak(files[i].path);
    }
  }

  /**
   * The stylesheet text reads back as one rule per map entry, each with that
   * entry's size and negated offset, under the url that points at the sheet.
   */
  lemma StylesheetReadsBack(curdir: string, spriteDir: string, cssDir: string,
                            files: seq<SourceFile>, order: seq<string>)
    requires |curdir| > 0 && StartsWith(spriteDir, curdir)
    requires Enumerates(order, Names(LoadImages(files)))
    requires NoBreaks(spriteDir, cssDir, files)
    ensures var positions := Stitch(LoadImages(files)).positions;
            ParseCss(CssText(curdir, spriteDir, cssDir, positions, order))
              == Some(CreateCss(curdir, spriteDir, cssDir, positions, order))
  {
    NamesHaveNoBreaks(files);
    CssTextReadsBack(curdir, spriteDir, cssDir, Stitch(LoadImages(files)).positions, order);
  }

  /** The page reads back as one div per image, in image order, repeats included. */
  lemma PageReadsBack(cssDir: string, files: seq<SourceFile>)
    requires forall i :: 0 <= i < |files| ==> '\n' !in files[i].path
    requires '\n' !in cssDir
    ensures ParsePreview(CreateHtml(cssDir, ClassNames(LoadImages(files))))
              == Some(Page(StylesheetHref(cssDir), ClassNames(LoadImages(files))))
    ensures |ClassNames(LoadImages(files))| == |files|
  {
    NamesHaveNoBreaks(files);
    assert '\n' !in "sprites.css";
    ParsePreviewRoundTrip(cssDir, ClassNames(LoadImages(files)));
  }

  /**
   * The two texts agree with the layout and with each other: the page has
   * exactly one div per image, the stylesheet one rule per distinct class
   * name, so at most as many rules as divs, and as many only when no two
   * images share a class name.
   */
  lemma ArtifactsAgree(curdir: string, spriteDir: string, cssDir: string, alpha: int,
                       files: seq<SourceFile>, order: seq<string>)
    requires |curdir| > 0 && StartsWith(spriteDir, curdir)
    requires Enumerates(order, Names(LoadImages(files)))
    requires NoBreaks(spriteDir, cssDir, files)
    ensures var out := Run(curdir, spriteDir, cssDir, alpha, files, order);
            && ParseCss(out.css) == Some(CreateCss(curdir, spriteDir, cssDir, out.sheet.positions, order))
            && ParsePreview(out.html) == Some(Page(StylesheetHref(cssDir), ClassNames(LoadImages(files))))
    ensures |ClassNames(LoadImages(files))| == |files|
    ensures |Stitch(LoadImages(files)).positions| <= |files|
    ensures |Stitch(LoadImages(files)).positions| == |files| <==> DistinctNames(LoadImages(files))
  {
    StylesheetReadsBack(curdir, spriteDir, cssDir, files, order);
    PageReadsBack(cssDir, files);
    EntriesPerName(LoadImages(files));
  }
}

=== FILE: strings.dfy ===
/**
 * The Python string operations the tool relies on: `str.split(sep)`,
 * `sep.join(parts)`, prefix and suffix tests, and `s * n`. `Replace` is not
 * called by the tool; it is a reference definition used to state what the
 * split-and-join of class names computes.
 */
module Strings {

  import opened Wrappers

  predicate StartsWith(s: string, prefix: string) {
    |prefix| <= |s| && s[..|prefix|] == prefix
  }

  predicate EndsWith(s: string, suffix: string) {
    |suffix| <= |s| && s[|s| - |suffix|..] == suffix
  }

  /** `pat` occurs in `s` starting at index `i`. */
  predicate OccursAt(s: string, pat: string, i: int) {
    0 <= i && i + |pat| <= |s| && s[i..i + |pat|] == pat
  }

  predicate Occurs(s: string, pat: string) {
    exists i :: 0 <= i <= |s| && OccursAt(s, pat, i)
  }

  /**
   * Python's `s.split(sep)`: the pieces between the occurrences of `sep`,
   * found left to right without overlap. There is always at least one piece.
   */
  function Split(s: string, sep: string): (parts: seq<string>)
    requires |sep| > 0
    ensures |parts| >= 1
    decreases |s|
  {
    if |s| < |sep| then [s]
    else if s[..|sep|] == sep then [""] + Split(s[|sep|..], sep)
    else
      var rest := Split(s[1..], sep);
      [[s[0]] + rest[0]] + rest[1..]
  }

  /** Python's `sep.join(parts)`. */
  function Join(parts: seq<string>, sep: string): string
  {
    if |parts| == 0 then ""
    else if |parts| == 1 then parts[0]
    else parts[0] + sep + Join(parts[1..], sep)
  }

  /** Every occurrence of `pat` replaced by `rep`, left to right, without overlap (the meaning of Python's `s.replace(pat, rep)`, used here only as a reference definition). */
  function Replace(s: string, pat: string, rep: string): string
    requires |pat| > 0
    decreases |s|
  {
    if |s| < |pat| then s
    else if s[..|pat|] == pat then rep + Replace(s[|pat|..], pat, rep)
    else [s[0]] + Replace(s[1..], pat, rep)
  }

  /** Python's `s * n`. */
  function Repeat(s: string, n: nat): string
  {
    if n == 0 then "" else s + Repeat(s, n - 1)
  }

  lemma EndsWithAppend(a: string, b: string, suffix: string)
    requires EndsWith(b, suffix)
    ensures EndsWith(a + b, suffix)
  {
    assert (a + b)[|a + b| - |suffix|..] == b[|b| - |suffix|..];
  }

  lemma {:induction false} RepeatLength(s: string, n: nat)
    ensures |Repeat(s, n)| == n * |s|
    decreases n
  {
    if n > 0 {
      RepeatLength(s, n - 1);
    }
  }

  /** The text strictly between a fixed `prefix` and a fixed `suffix`, if `s` has both. */
  function Between(s: string, prefix: string, suffix: string): (r: Option<string>)
    ensures r.Some? ==> s == prefix + r.value + suffix
  {
    if |prefix| + |suffix| <= |s| && StartsWith(s, prefix) && EndsWith(s, suffix) then
      var mid := s[|prefix|..|s| - |suffix|];
      assert s == s[..|prefix|] + mid + s[|s| - |suffix|..];
      Some(mid)
    else None
  }

  lemma BetweenRoundTrip(prefix: string, mid: string, suffix: string)
    ensures Between(prefix + mid + suffix, prefix, suffix) == Some(mid)
  {
    var s := prefix + mid + suffix;
    assert s[..|prefix|] == prefix;
    assert s[|s| - |suffix|..] == suffix;
    assert s[|prefix|..|s| - |suffix|] == mid;
  }

  // ---------------------------------------------------------------------------
  // Join
  // ---------------------------------------------------------------------------

  lemma JoinCons(x: string, rest: seq<string>, sep: string)
    requires |rest| >= 1
    ensures Join([x] + rest, sep) == x + sep + Join(rest, sep)
  {
    assert ([x] + rest)[1..] == rest;
  }

  /** Joining two non-empty lists puts exactly one separator between them. */
  lemma {:induction false} JoinAppend(a: seq<string>, b: seq<string>, sep: string)
    requires |a| >= 1 && |b| >= 1
    ensures Join(a + b, sep) == Join(a, sep) + sep + Join(b, sep)
    decreases |a|
  {
    if |a| == 1 {
      assert a + b == [a[0]] + b;
      JoinCons(a[0], b, sep);
    } else {
      JoinAppend(a[1..], b, sep);
      assert a + b == [a[0]] + (a[1..] + b);
      JoinCons(a[0], a[1..] + b, sep);
      JoinCons(a[0], a[1..], sep);
      assert a == [a[0]] + a[1..];
    }
  }

  /** Prepending one character to the first piece prepends it to the joined text. */
  lemma JoinPrependChar(c: char, parts: seq<string>, sep: string)
    requires |parts| >= 1
    ensures Join([[c] + parts[0]] + parts[1..], sep) == [c] + Join(parts, sep)
  {
    var q := [[c] + parts[0]] + parts[1..];
    if |parts| == 1 {
      assert q == [[c] + parts[0]];
    } else {
      assert q[1..] == parts[1..];
    }
  }

  /** Every character of a joined text comes from a piece or from the separator. */
  lemma {:induction false} JoinElems(parts: seq<string>, sep: string, ch: char)
    requires ch in Join(parts, sep)
    ensures ch in sep || exists p :: p in parts && ch in p
    decreases |parts|
  {
    if |parts| == 1 {
      assert parts[0] in parts;
    } else {
      assert parts[0] in parts;
      if ch !in parts[0] && ch !in sep {
        JoinElems(parts[1..], sep, ch);
        var p :| p in parts[1..] && ch in p;
        assert p in parts;
      }
    }
  }

  // ---------------------------------------------------------------------------
  // Split and its relation to Join and Replace
  // ---------------------------------------------------------------------------

  /** Splitting then joining with `rep` is the same as replacing `sep` by `rep`. */
  lemma {:induction false} JoinSplitIsReplace(s: string, sep: string, rep: string)
    requires |sep| > 0
    ensures Join(Split(s, sep), rep) == Replace(s, sep, rep)
    decreases |s|
  {
    if |s| < |sep| {
    } else if s[..|sep|] == sep {
      var tail := Split(s[|sep|..], sep);
      assert Split(s, sep) == [""] + tail;
      JoinSplitIsReplace(s[|sep|..], sep, rep);
      JoinCons("", tail, rep);
      assert Join(Split(s, sep), rep) == rep + Join(tail, rep);
    } else {
      var tail := Split(s[1..], sep);
      assert Split(s, sep) == [[s[0]] + tail[0]] + tail[1..];
      JoinSplitIsReplace(s[1..], sep, rep);
      JoinPrependChar(s[0], tail, rep);
      assert Join(Split(s, sep), rep) == [s[0]] + Join(tail, rep);
    }
  }

  lemma {:induction false} ReplaceBySelf(s: string, pat: string)
    requires |pat| > 0
    ensures Replace(s, pat, pat) == s
    decreases |s|
  {
    if |s| < |pat| {
    } else if s[..|pat|] == pat {
      ReplaceBySelf(s[|pat|..], pat);
      assert s == s[..|pat|] + s[|pat|..];
    } else {
      ReplaceBySelf(s[1..], pat);
      assert s == [s[0]] + s[1..];
    }
  }

  /** `sep.join(s.split(sep)) == s`. */
  lemma {:induction false} JoinSplitRoundTrip(s: string, sep: string)
    requires |sep| > 0
    ensures Join(Split(s, sep), sep) == s
  {
    JoinSplitIsReplace(s, sep, sep);
    ReplaceBySelf(s, sep);
  }

  /** A text in which `sep` never occurs splits into itself alone. */
  lemma {:induction false} SplitWithout(s: string, sep: string)
    requires |sep| > 0
    requires !Occurs(s, sep)
    ensures Split(s, sep) == [s]
    decreases |s|
  {
    if |s| < |sep| {
    } else {
      assert !OccursAt(s, sep, 0);
      assert s[..|sep|] != sep;
      forall i | 0 <= i <= |s[1..]|
        ensures !OccursAt(s[1..], sep, i)
      {
        if i + |sep| <= |s[1..]| {
          assert s[1..][i..i + |sep|] == s[i + 1..i + 1 + |sep|];
          assert !OccursAt(s, sep, i + 1);
        }
      }
      SplitWithout(s[1..], sep);
      assert [s[0]] + s[1..] == s;
    }
  }

  lemma CharAbsentNotOccurs(s: string, c: char)
    requires c !in s
    ensures !Occurs(s, [c])
  {
    forall i | 0 <= i <= |s|
      ensures !OccursAt(s, [c], i)
    {
      if i + 1 <= |s| {
        assert s[i..i + 1] == [s[i]];
        assert s[i] in s;
      }
    }
  }

  /** A text starting with `sep` splits into an empty piece and the split of the rest. */
  lemma SplitAtPrefix(s: string, sep: string)
    requires |sep| > 0 && StartsWith(s, sep)
    ensures Split(s, sep) == [""] + Split(s[|sep|..], sep)
    ensures |Split(s, sep)| >= 2
  {
  }

  /** A split on a character that starts the text begins with an empty piece. */
  lemma SplitCharHit(t: string, c: char)
    ensures Split([c] + t, [c]) == [""] + Split(t, [c])
  {
    var s := [c] + t;
    assert s[..1] == [c];
    assert s[1..] == t;
  }

  /** Any other first character joins the first piece. */
  lemma SplitCharMiss(x: char, t: string, c: char)
    requires x != c
    ensures Split([x] + t, [c]) == [[x] + Split(t, [c])[0]] + Split(t, [c])[1..]
  {
    var s := [x] + t;
    assert s[..1] == [x];
    assert s[1..] == t;
  }

  /** Splitting on one character distributes over a concatenation around that character. */
  lemma {:induction false} SplitConcat(a: string, c: char, b: string)
    ensures Split(a + [c] + b, [c]) == Split(a, [c]) + Split(b, [c])
    decreases |a|
  {
    if |a| == 0 {
      assert a + [c] + b == [c] + b;
      SplitCharHit(b, c);
      assert Split(a, [c]) == [""];
    } else {
      var t := a[1..];
      var u := t + [c] + b;
      assert a == [a[0]] + t;
      assert a + [c] + b == [a[0]] + u;
      SplitConcat(t, c, b);
      if a[0] == c {
        SplitConcatHit(u, t, c, b);
      } else {
        SplitConcatMiss(a[0], u, t, c, b);
      }
    }
  }

  lemma AppendAssoc<T>(x: seq<T>, y: seq<T>, z: seq<T>)
    ensures x + (y + z) == (x + y) + z
  {
  }

  /** The inductive step of `SplitConcat` when the separator comes first. */
  lemma SplitConcatHit(u: string, t: string, c: char, b: string)
    requires Split(u, [c]) == Split(t, [c]) + Split(b, [c])
    ensures Split([c] + u, [c]) == Split([c] + t, [c]) + Split(b, [c])
  {
    SplitCharHit(u, c);
    SplitCharHit(t, c);
    AppendAssoc([""], Split(t, [c]), Split(b, [c]));
  }

  /** The inductive step of `SplitConcat` for any other first character. */
  lemma SplitConcatMiss(x: char, u: string, t: string, c: char, b: string)
    requires x != c
    requires Split(u, [c]) == Split(t, [c]) + Split(b, [c])
    ensures Split([x] + u, [c]) == Split([x] + t, [c]) + Split(b, [c])
  {
    SplitCharMiss(x, u, c);
    SplitCharMiss(x, t, c);
    var rt, rb := Split(t, [c]), Split(b, [c]);
    DropAppend(rt, rb);
    AppendAssoc([[x] + rt[0]], rt[1..], rb);
  }

  /** Dropping the head of a non-empty left operand. */
  lemma DropAppend<T>(x: seq<T>, y: seq<T>)
    requires |x| >= 1
    ensures (x + y)[0] == x[0] && (x + y)[1..] == x[1..] + y
  {
  }

  /** No piece of a split on one character contains that character. */
  lemma {:induction false} SplitPartsLackSep(s: string, c: char)
    ensures forall p :: p in Split(s, [c]) ==> c !in p
    decreases |s|
  {
    if |s| < 1 {
    } else if s[..1] == [c] {
      SplitPartsLackSep(s[1..], c);
    } else {
      SplitPartsLackSep(s[1..], c);
      var rest := Split(s[1..], [c]);
      assert rest[0] in rest;
      assert s[0] != c by { assert s[..1] == [s[0]]; }
      forall p | p in Split(s, [c])
        ensures c !in p
      {
        if p != [s[0]] + rest[0] {
          assert p in rest[1..];
        }
      }
    }
  }

  /** Every character of a piece of a split comes from the split text. */
  lemma {:induction false} SplitPartsElems(s: string, sep: string)
    requires |sep| > 0
    ensures forall p, ch :: p in Split(s, sep) && ch in p ==> ch in s
    decreases |s|
  {
    if |s| < |sep| {
    } else if s[..|sep|] == sep {
      SplitPartsElems(s[|sep|..], sep);
      forall p, ch | p in Split(s, sep) && ch in p
        ensures ch in s
      {
        assert p in Split(s[|sep|..], sep);
        var i :| 0 <= i < |s[|sep|..]| && s[|sep|..][i] == ch;
        assert s[|sep| + i] == ch;
      }
    } else {
      SplitPartsElems(s[1..], sep);
      var rest := Split(s[1..], sep);
      assert rest[0] in rest;
      forall p, ch | p in Split(s, sep) && ch in p
        ensures ch in s
      {
        var i :| 0 <= i < |p| && p[i] == ch;
        if p == [s[0]] + rest[0] {
          if i > 0 {
            assert ch in rest[0];
            var k :| 0 <= k < |s[1..]| && s[1..][k] == ch;
            assert s[k + 1] == ch;
          }
        } else {
          assert p in rest[1..];
          assert p in rest;
          var k :| 0 <= k < |s[1..]| && s[1..][k] == ch;
          assert s[k + 1] == ch;
        }
      }
    }
  }

  /** Splitting on one character undoes joining with it, when no piece contains it. */
  lemma {:induction false} SplitJoinRoundTrip(parts: seq<string>, c: char)
    requires |parts| >= 1
    requires forall p :: p in parts ==> c !in p
    ensures Split(Join(parts, [c]), [c]) == parts
    decreases |parts|
  {
    assert parts[0] in parts;
    CharAbsentNotOccurs(parts[0], c);
    SplitWithout(parts[0], [c]);
    if |parts| > 1 {
      forall p | p in parts[1..]
        ensures c !in p
      {
        assert p in parts;
      }
      SplitJoinRoundTrip(parts[1..], c);
      SplitConcat(parts[0], c, Join(parts[1..], [c]));
      assert parts == [parts[0]] + parts[1..];
    }
  }

  // ---------------------------------------------------------------------------
  // Replacing one character
  // ---------------------------------------------------------------------------

  lemma {:induction false} ReplaceCharConcat(a: string, b: string, c: char, rep: string)
    ensures Replace(a + b, [c], rep) == Replace(a, [c], rep) + Replace(b, [c], rep)
    decreases |a|
  {
    if |a| == 0 {
      assert a + b == b;
    } else {
      assert (a + b)[1..] == a[1..] + b;
      assert (a + b)[..1] == a[..1];
      ReplaceCharConcat(a[1..], b, c, rep);
    }
  }

  /** After replacing `c` by `rep`, every character is either an old one other than `c`, or from `rep`. */
  lemma {:induction false} ReplaceCharElems(s: string, c: char, rep: string, ch: char)
    requires ch in Replace(s, [c], rep)
    ensures (ch in s && ch != c) || ch in rep
    decreases |s|
  {
    if |s| == 0 {
    } else if s[..1] == [c] {
      if ch !in rep {
        ReplaceCharElems(s[1..], c, rep, ch);
        assert ch in s by {
          var k :| 0 <= k < |s[1..]| && s[1..][k] == ch;
          assert s[k + 1] == ch;
        }
      }
    } else {
      assert s[0] != c by { assert s[..1] == [s[0]]; }
      if ch != s[0] {
        ReplaceCharElems(s[1..], c, rep, ch);
        if ch !in rep {
          var k :| 0 <= k < |s[1..]| && s[1..][k] == ch;
          assert s[k + 1] == ch;
        }
      }
    }
  }

  lemma {:induction false} ReplaceCharAbsent(s: string, c: char, rep: string)
    requires c !in s
    ensures Replace(s, [c], rep) == s
    decreases |s|
  {
    if |s| > 0 {
      assert s[..1] != [c] by { assert s[..1] == [s[0]]; }
      ReplaceCharAbsent(s[1..], c, rep);
      assert s == [s[0]] + s[1..];
    }
  }
}

=== FILE: stylesheet.dfy ===
/**
 * The stylesheet `create_css` writes: a shared `.sprite` rule that sets the
 * composite as background, then one rule per entry of the placement map with
 * the placement's width and height and its negated offset as
 * background-position. Numbers are written as bare integers, without units.
 */
module Stylesheet {

  import opened Wrappers
  import opened Strings
  import opened Numerals
  import opened Layout
  import opened Paths

  /** One per-image rule (the CSS_TPL template, lines 33-39). */
  datatype Rule = Rule(className: string, width: nat, height: nat, posX: int, posY: int)

  /** The whole stylesheet: the composite's URL and the per-image rules in output order. */
  datatype Css = Css(url: string, rules: seq<Rule>)

  /**
   * `order` lists every key of the map exactly once. Python 2 dictionaries
   * iterate in an order fixed by hashing, which the model does not fix.
   */
  predicate Enumerates(order: seq<string>, keys: set<string>)
  {
    && (forall i, j :: 0 <= i < j < |order| ==> order[i] != order[j])
    && (forall k :: k in order ==> k in keys)
    && (forall k :: k in keys ==> k in order)
  }

  /** A rule carries its placement's size and its negated offset. */
  function RuleFor(name: string, r: Rect): Rule
  {
    Rule(name, r.w, r.h, -(r.x as int), -(r.y as int))
  }

  /**
   * The stylesheet for a placement map visited in `order`: the URL computed
   * from the directories, then one rule per map entry, carrying that entry's
   * size and negated offset.
   */
  function CreateCss(curdir: string, spriteDir: string, cssDir: string,
                     positions: map<string, Rect>, order: seq<string>): (css: Css)
    requires |curdir| > 0 && StartsWith(spriteDir, curdir)
    requires Enumerates(order, positions.Keys)
    ensures css.url == SpriteUrl(curdir, spriteDir, cssDir)
    ensures |css.rules| == |positions|
    ensures forall i :: 0 <= i < |css.rules| ==>
              css.rules[i].className in positions && css.rules[i] == RuleFor(css.rules[i].className, positions[css.rules[i].className])
    ensures forall name :: name in positions ==>
              exists i :: 0 <= i < |css.rules| && css.rules[i].className == name
    ensures forall i, j :: 0 <= i < j < |css.rules| ==> css.rules[i].className != css.rules[j].className
  {
    EnumerationSize(order, positions.Keys);
    assert |positions| == |positions.Keys|;
    var rules := seq(|order|, i requires 0 <= i < |order| => RuleFor(order[i], positions[order[i]]));
    forall name | name in positions
      ensures exists i :: 0 <= i < |rules| && rules[i].className == name
    {
      var i :| 0 <= i < |order| && order[i] == name;
      assert rules[i].className == name;
    }
    Css(SpriteUrl(curdir, spriteDir, cssDir), rules)
  }

  lemma {:induction false} EnumerationSize(order: seq<string>, keys: set<string>)
    requires Enumerates(order, keys)
    ensures |order| == |keys|
    decreases |order|
  {
    if |order| == 0 {
      assert forall k :: k in keys ==> k in order;
      assert keys == {};
    } else {
      var rest := order[1..];
      forall k
        ensures k in rest <==> k in keys - {order[0]}
      {
        if k in rest {
          var i :| 0 <= i < |rest| && rest[i] == k;
          assert order[i + 1] == k;
        }
        if k in keys - {order[0]} {
          var i :| 0 <= i < |order| && order[i] == k;
          assert i != 0;
          assert rest[i - 1] == k;
        }
      }
      forall i, j | 0 <= i < j < |rest|
        ensures rest[i] != rest[j]
      {
        assert rest[i] == order[i + 1] && rest[j] == order[j + 1];
      }
      EnumerationSize(rest, keys - {order[0]});
    }
  }

  // ---------------------------------------------------------------------------
  // Rendering
  // ---------------------------------------------------------------------------

  /** The shared rule (lines 134-138), line by line. */
  function HeaderLines(url: string): seq<string>
  {
    [".sprite {", "  display: block;", "  background: url('" + url + "');", "}"]
  }

  /** The CSS_TPL template (lines 33-39) filled in for one rule, line by line. */
  function RuleLines(rule: Rule): seq<string>
  {
    [ "." + rule.className + " {",
      "  width: " + IntToString(rule.width) + ";",
      "  height: " + IntToString(rule.height) + ";",
      "  background-position: " + IntToString(rule.posX) + " " + IntToString(rule.posY) + ";",
      "}" ]
  }

  /** Each template ends in a line break. */
  function HeaderText(url: string): string
  {
    Join(HeaderLines(url), "\n") + "\n"
  }

  function RuleText(rule: Rule): string
  {
    Join(RuleLines(rule), "\n") + "\n"
  }

  /** Lines 142-150: the rules appended one after another. */
  function RulesText(rules: seq<Rule>): string
  {
    if |rules| == 0 then "" else RuleText(rules[0]) + RulesText(rules[1..])
  }

  /** The text of `sprites.css`. */
  function Render(css: Css): string
  {
    HeaderText(css.url) + RulesText(css.rules)
  }

  /** Lines 128-150: the stylesheet text for a placement map visited in `order`. */
  function CssText(curdir: string, spriteDir: string, cssDir: string,
                   positions: map<string, Rect>, order: seq<string>): string
    requires |curdir| > 0 && StartsWith(spriteDir, curdir)
    requires Enumerates(order, positions.Keys)
  {
    Render(CreateCss(curdir, spriteDir, cssDir, positions, order))
  }

  // ---------------------------------------------------------------------------
  // Reading the stylesheet back
  // ---------------------------------------------------------------------------

  function RulesLines(rules: seq<Rule>): seq<string>
  {
    if |rules| == 0 then [] else RuleLines(rules[0]) + RulesLines(rules[1..])
  }

  /** Reads one rule from its five lines. */
  function ParseRule(lines: seq<string>): Option<Rule>
    requires |lines| == 5
  {
    var name :- Between(lines[0], ".", " {");
    var wText :- Between(lines[1], "  width: ", ";");
    var hText :- Between(lines[2], "  height: ", ";");
    var posText :- Between(lines[3], "  background-position: ", ";");
    var w :- ParseInt(wText);
    var h :- ParseInt(hText);
    var coords := Split(posText, " ");
    if w < 0 || h < 0 || |coords| != 2 || lines[4] != "}" then None
    else
      var x :- ParseInt(coords[0]);
      var y :- ParseInt(coords[1]);
      Some(Rule(name, w, h, x, y))
  }

  /** Reads consecutive five-line rules up to the final empty line. */
  function ParseRules(lines: seq<string>): Option<seq<Rule>>
    decreases |lines|
  {
    if lines == [""] then Some([])
    else if |lines| < 6 then None
    else
      var rule :- ParseRule(lines[..5]);
      var rest :- ParseRules(lines[5..]);
      Some([rule] + rest)
  }

  /** Reads a stylesheet: the shared rule, then the per-image rules. */
  function ParseCss(text: string): Option<Css>
  {
    var lines := Split(text, "\n");
    if |lines| < 5 || lines[0] != ".sprite {" || lines[1] != "  display: block;" || lines[3] != "}" then None
    else
      var url :- Between(lines[2], "  background: url('", "');");
      var rules :- ParseRules(lines[4..]);
      Some(Css(url, rules))
  }

  predicate NoLineBreaks(css: Css)
  {
    && '\n' !in css.url
    && forall i :: 0 <= i < |css.rules| ==> '\n' !in css.rules[i].className
  }

  lemma {:induction false} RulesAsLines(rules: seq<Rule>)
    ensures RulesText(rules) == Join(RulesLines(rules) + [""], "\n")
    decreases |rules|
  {
    if |rules| == 0 {
      assert RulesLines(rules) + [""] == [""];
    } else {
      var first, rest := RuleLines(rules[0]), RulesLines(rules[1..]) + [""];
      RulesAsLines(rules[1..]);
      JoinAppend(first, rest, "\n");
      assert RulesLines(rules) + [""] == first + rest;
    }
  }

  function CssLines(css: Css): seq<string>
  {
    HeaderLines(css.url) + RulesLines(css.rules) + [""]
  }

  lemma RenderAsLines(css: Css)
    ensures Render(css) == Join(CssLines(css), "\n")
  {
    var header, rest := HeaderLines(css.url), RulesLines(css.rules) + [""];
    RulesAsLines(css.rules);
    JoinAppend(header, rest, "\n");
    assert CssLines(css) == header + rest;
  }

  lemma IntTextHasNoBreakOrSpace(n: int)
    ensures '\n' !in IntToString(n) && ' ' !in IntToString(n)
  {
  }

  lemma RuleLinesClean(rule: Rule)
    requires '\n' !in rule.className
    ensures forall l :: l in RuleLines(rule) ==> '\n' !in l
  {
    IntTextHasNoBreakOrSpace(rule.width);
    IntTextHasNoBreakOrSpace(rule.height);
    IntTextHasNoBreakOrSpace(rule.posX);
    IntTextHasNoBreakOrSpace(rule.posY);
    assert '\n' !in "  background-position: ";
  }

  lemma {:induction false} RulesLinesClean(rules: seq<Rule>)
    requires forall i :: 0 <= i < |rules| ==> '\n' !in rules[i].className
    ensures forall l :: l in RulesLines(rules) ==> '\n' !in l
    decreases |rules|
  {
    if |rules| > 0 {
      RuleLinesClean(rules[0]);
      forall i | 0 <= i < |rules[1..]|
        ensures '\n' !in rules[1..][i].className
      {
        assert rules[1..][i] == rules[i + 1];
      }
      RulesLinesClean(rules[1..]);
    }
  }

  lemma HeaderLinesClean(url: string)
    requires '\n' !in url
    ensures forall l :: l in HeaderLines(url) ==> '\n' !in l
  {
    assert '\n' !in "  background: url('";
  }

  /** The stylesheet's lines are exactly the shared rule's, then each rule's five, then an empty one. */
  lemma LinesOfRender(css: Css)
    requires NoLineBreaks(css)
    ensures Split(Render(css), "\n") == CssLines(css)
  {
    RenderAsLines(css);
    RulesLinesClean(css.rules);
    HeaderLinesClean(css.url);
    SplitJoinRoundTrip(CssLines(css), '\n');
  }

  /** `x y` splits on the space back into the two numbers. */
  lemma PositionRoundTrip(x: int, y: int)
    ensures Split(IntToString(x) + " " + IntToString(y), " ") == [IntToString(x), IntToString(y)]
  {
    var xs, ys := IntToString(x), IntToString(y);
    IntTextHasNoBreakOrSpace(x);
    IntTextHasNoBreakOrSpace(y);
    SplitConcat(xs, ' ', ys);
    CharAbsentNotOccurs(xs, ' ');
    CharAbsentNotOccurs(ys, ' ');
    SplitWithout(xs, " ");
    SplitWithout(ys, " ");
  }

  lemma ParseRuleRoundTrip(rule: Rule)
    ensures ParseRule(RuleLines(rule)) == Some(rule)
  {
    var l := RuleLines(rule);
    var x, y := IntToString(rule.posX), IntToString(rule.posY);
    BetweenRoundTrip(".", rule.className, " {");
    BetweenRoundTrip("  width: ", IntToString(rule.width), ";");
    BetweenRoundTrip("  height: ", IntToString(rule.height), ";");
    assert l[3] == "  background-position: " + (x + " " + y) + ";";
    BetweenRoundTrip("  background-position: ", x + " " + y, ";");
    IntToStringRoundTrip(rule.width);
    IntToStringRoundTrip(rule.height);
    IntToStringRoundTrip(rule.posX);
    IntToStringRoundTrip(rule.posY);
    PositionRoundTrip(rule.posX, rule.posY);
  }

  lemma {:induction false} ParseRulesRoundTrip(rules: seq<Rule>)
    ensures ParseRules(RulesLines(rules) + [""]) == Some(rules)
    decreases |rules|
  {
    if |rules| > 0 {
      var first, rest := RuleLines(rules[0]), RulesLines(rules[1..]) + [""];
      var lines := RulesLines(rules) + [""];
      assert lines == first + rest;
      assert lines[..5] == first;
      assert lines[5..] == rest;
      ParseRuleRoundTrip(rules[0]);
      ParseRulesRoundTrip(rules[1..]);
      assert rules == [rules[0]] + rules[1..];
    }
  }

  /** A stylesheet built from break-free keys and directories has no line break in its fields. */
  lemma CreatedHasNoBreaks(curdir: string, spriteDir: string, cssDir: string,
                           positions: map<string, Rect>, order: seq<string>)
    requires |curdir| > 0 && StartsWith(spriteDir, curdir)
    requires Enumerates(order, positions.Keys)
    requires '\n' !in spriteDir
    requires forall name :: name in positions ==> '\n' !in name
    ensures NoLineBreaks(CreateCss(curdir, spriteDir, cssDir, positions, order))
  {
    UrlHasNoBreak(curdir, spriteDir, cssDir);
  }

  /** The text of a created stylesheet reads back as that stylesheet. */
  lemma CssTextReadsBack(curdir: string, spriteDir: string, cssDir: string,
                         positions: map<string, Rect>, order: seq<string>)
    requires |curdir| > 0 && StartsWith(spriteDir, curdir)
    requires Enumerates(order, positions.Keys)
    requires '\n' !in spriteDir
    requires forall name :: name in positions ==> '\n' !in name
    ensures ParseCss(CssText(curdir, spriteDir, cssDir, positions, order))
              == Some(CreateCss(curdir, spriteDir, cssDir, positions, order))
  {
    CreatedHasNoBreaks(curdir, spriteDir, cssDir, positions, order);
    ParseRenderRoundTrip(CreateCss(curdir, spriteDir, cssDir, positions, order));
  }

  /** Nothing is lost in rendering: the stylesheet text reads back as the stylesheet. */
  lemma ParseRenderRoundTrip(css: Css)
    requires NoLineBreaks(css)
    ensures ParseCss(Render(css)) == Some(css)
  {
    var header, rest := HeaderLines(css.url), RulesLines(css.rules) + [""];
    var lines := CssLines(css);
    assert Split(Render(css), "\n") == lines by {
      LinesOfRender(css);
    }
    assert lines == header + rest;
    assert lines[..4] == header;
    assert lines[4..] == rest;
    BetweenRoundTrip("  background: url('", css.url, "');");
    ParseRulesRoundTrip(css.rules);
  }
}

=== FILE: wrappers.dfy ===
/** The result of the stylesheet and page readers: the value read, or nothing when the text does not have the expected shape. */
module Wrappers {

  datatype Option<+T> = None | Some(value: T) {

    predicate IsFailure() {
      None?
    }

    function PropagateFailure<U>(): Option<U>
      requires None?
    {
      None
    }

    function Extract(): T
      requires Some?
    {
      value
    }
  }
}
